=== FILE: README.md ===
# Voll Med clinic API: security pipeline and CRUD controllers in Dafny

This project models the core of the Voll Med clinic back end, a Spring Boot REST API. The modelled core is:

- The **authorization rule list** of `SecurityConfiguration` (`AccessPolicy`). It is a first-match list of (method, path pattern) → requirement rules.
- The **JWT filter** `JwtAuthenticationFilter` (`JwtFilter`). It turns an `Authorization` header into one of four results: an anonymous pass, an authenticated pass, an error response, or an exception that escapes. The module also models the filter's hand-written JSON writer.
- The **token service** `TokenService` (`TokenService`). This covers the claim set a token is issued with and the rules `validarToken` and `getUsernameFromToken` apply to a parsed token.
- The **user principal** `Usuario` (`Usuarios`), together with the user repository's lookup by login.
- The **login endpoint** `AutenticacionController` (`Autenticacion`). It models Spring's DAO authentication provider as that endpoint uses it.
- The **exception-to-response translation** of `GlobalErrorHandler` (`GlobalErrorHandler`).
- The **doctor record** `Medico` (`Medicos`).
- The **CRUD controllers** for doctors and patients (`MedicoController`, `PacienteController`). They work over an immutable id → record table (`Repository`).
- One request through the filter and then the rule list (`RequestPipeline`).

Modelling conventions:

- Everything is a pure function over immutable datatypes.
- A Java call that may throw returns `Outcome<T>`, either `Ok(value)` or `Throw(exception)`.
- Java `null` is `Option`.
- `long` ids are the subtype `Long`. Wrap-around is written out where the source computes with `long`, namely the expiry instant and `Long.hashCode`.
- The rest of the system appears as function parameters, and these are never given a body:
  - `parse: string -> ParseOutcome` is the JWT library's parse and signature check with the configured key. Its outcome is the claims, or one of the failures the library raises.
  - `encode: Claims -> string` is signing and compact serialisation.
  - `matches(clear, hash)` is the BCrypt comparison.
  - `now` is the clock.
  - `newId` is the id the database generates.
  - `DireccionOps` holds the address class operations, and `PacienteOps` holds the patient class operations.

Behaviour of the code worth noting:

- A well-signed token without a subject is not answered 401 `ERR_INVALID_TOKEN`. `validarToken` throws a plain `RuntimeException`, which none of the filter's catch clauses handle, so it leaves the filter (`JwtFilter.NonJwtExceptionsEscape`).
- The authority a user carries is `rol.name()` verbatim. No `ROLE_` prefix is added, although the comment at `src/main/java/med/voll/api/domain/usuario/Usuario.java:44` says one is (`Usuarios.AuthorityIsRoleName`, `RequestPipeline.UnprefixedRoleLockedOut`).
- A `PUT` reply shows the record as updated even though the controller passes the instance it read to the response DTO: inside the transaction, `save` merges the updated copy into that instance (`MedicoController.UpdateReplyShowsNewRecord`).
- The filter's `else` branch sending "Token inválido o expirado" is unreachable, because `validarToken` never returns false (`JwtFilter.ElseBranchUnreachable`).
- The rule list's `"/pacientes/**"` pattern on the admin line is dead: every request in that subtree is decided by an earlier line (`AccessPolicy.PacientesOnAdminLineDead`).

## Model

| member | source | states |
|---|---|---|
| Common.FirstIndex | src/main/java/med/voll/api/infra/security/SecurityConfiguration.java:50-56 | The selected index is the first whose element satisfies the predicate, or the length when none does: the first-match rule of the rule list. |
| Common.FirstIndexUnique | src/main/java/med/voll/api/infra/security/JwtAuthenticationFilter.java:55-64 | An index whose element matches, with no earlier match, is the one selected: first match is unique. |
| Common.WrapLong | src/main/java/med/voll/api/infra/security/TokenService.java:34 | Java `long` addition wraps modulo 2^64 and agrees with exact arithmetic in range. |
| Common.WrapInt32 | src/main/java/med/voll/api/domain/usuario/Usuario.java:19 | A value wrapped into a Java `int` is in range and congruent to the input modulo 2^32, as Lombok's `int` hash arithmetic is. |
| Common.LongHashCode | src/main/java/med/voll/api/domain/usuario/Usuario.java:19 | `Long.hashCode` of an id is a Java `int`: the id itself for ids in [0, 2^31), and 0 for -1, whose two halves cancel. |
| Common.IdHashCode | src/main/java/med/voll/api/domain/usuario/Usuario.java:19-24 | The Lombok id-only hash code is a Java `int`: 59 + 43 = 102 for a null id, and 59 + id for a small non-negative id. |
| Text.ContainsIff | src/main/java/med/voll/api/infra/errors/GlobalErrorHandler.java:38 | `String.contains` holds exactly when the pattern occurs at some position. |
| Text.RemoveAll | src/main/java/med/voll/api/infra/security/JwtAuthenticationFilter.java:38 | `String.replace(target, "")` deletes the non-overlapping occurrences, scanning left to right: the result is shorter by the target's length times their number. It is shorter by at least one target when the target occurs, and unchanged when it does not. `JwtFilter.BearerToken` is this removal with the target `"Bearer "`. |
| Text.RemoveAllLeading | src/main/java/med/voll/api/infra/security/JwtAuthenticationFilter.java:37-38 | A leading occurrence of the prefix is removed, then the rest is processed. |
| Text.RemoveAllSkipsHead | src/main/java/med/voll/api/infra/security/JwtAuthenticationFilter.java:38 | A head character that does not start an occurrence is kept, and the scan resumes at the next character. With `RemoveAllLeading` and `RemoveAllShort`, this fixes the result of `replace(target, "")` for every string. |
| Text.RemoveAllShort | src/main/java/med/voll/api/infra/security/JwtAuthenticationFilter.java:38 | A string shorter than the target comes back unchanged. |
| Text.RemoveAllInterior | src/main/java/med/voll/api/infra/security/JwtAuthenticationFilter.java:38 | An occurrence inside the string is deleted too: "Bearer a.Bearer b" becomes "a.b". |
| Text.RemoveAllCanLeaveOccurrence | src/main/java/med/voll/api/infra/security/JwtAuthenticationFilter.java:38 | The removal can leave a fresh `"Bearer "` behind: "BeBearer arer " becomes "Bearer ". |
| Text.ParseNatToString | src/main/java/med/voll/api/controller/MedicoController.java:50 | The decimal id in a `Location` path reads back as the id. |
| Text.NatToStringInjective | src/main/java/med/voll/api/controller/PacienteController.java:51 | Distinct ids give distinct `Location` paths. |
| Text.NatToString | src/main/java/med/voll/api/controller/MedicoController.java:50 | An id expands in `/medicos/{id}` to a non-empty run of decimal digits with no leading zero. |
| Usuarios.NewUsuario | src/main/java/med/voll/api/domain/usuario/Usuario.java:36-56 | The three-argument constructor leaves the id null and stores its arguments, which `getUsername` and `getPassword` then return. `Usuarios.GetUsername` and `Usuarios.GetPassword` model those getters, and their results are stated here. |
| Usuarios.GetAuthorities | src/main/java/med/voll/api/domain/usuario/Usuario.java:42-46 | A user has exactly one authority, the role's name. |
| Usuarios.AuthorityIsRoleName | src/main/java/med/voll/api/domain/usuario/Usuario.java:44-45 | No `ROLE_` prefix is added: an unprefixed role name yields an unprefixed authority. |
| Usuarios.AccountFlagsAlwaysTrue | src/main/java/med/voll/api/domain/usuario/Usuario.java:58-76 | The four account-status flags are always true. |
| Usuarios.EqualsByIdOnly | src/main/java/med/voll/api/domain/usuario/Usuario.java:19-24 | Equality compares ids only, is reflexive and symmetric, and equal users hash alike. |
| Usuarios.UnsavedUsersEqual | src/main/java/med/voll/api/domain/usuario/Usuario.java:19-40 | Any two unsaved users are equal, whatever their logins. |
| Usuarios.FindByLogin | src/main/java/med/voll/api/controller/AutenticacionController.java:45 | The lookup finds a user exactly when the login is stored, and the found user's username is that login. |
| TokenService.ExpirationInstant | src/main/java/med/voll/api/infra/security/TokenService.java:32-34 | The expiry is issue time plus one hour, in `long` arithmetic. |
| TokenService.FirstOrElse | src/main/java/med/voll/api/infra/security/TokenService.java:40-43 | The `rol` claim source is the first authority, or `ROLE_USER` when there is none. |
| TokenService.AddClaim | src/main/java/med/voll/api/infra/security/TokenService.java:36-49 | Adding a claim to the builder sets it when the value is non-null and removes the key when it is null, as the JWT builder does; no other claim changes. |
| TokenService.GerarToken | src/main/java/med/voll/api/infra/security/TokenService.java:31-55 | For a persisted user, a token carries exactly the claims iss, id, rol, sub, iat and exp, and id is the user's id. For an unsaved user the null id is dropped, leaving the other five. The issuer is "voll med", the subject is the login, rol is the role name, and exp is iat plus one hour. |
| TokenService.ParseClaimsJws | src/main/java/med/voll/api/infra/security/TokenService.java:62-66 | Parsing succeeds exactly for a valid token whose issuer meets the requirement, and it yields that token's claims. |
| TokenService.ValidarToken | src/main/java/med/voll/api/infra/security/TokenService.java:59-74 | Validation never returns false. It succeeds exactly for a valid token with issuer "voll med" and a subject. Otherwise it throws one exception per cause: a subject-less token gives `RuntimeException("Verifier invalid")`. |
| TokenService.GetUsernameFromToken | src/main/java/med/voll/api/infra/security/TokenService.java:77-87 | Reading the subject succeeds exactly for a valid token, whatever its issuer, and yields its (possibly null) subject. |
| TokenService.ValidTokenHasUsername | src/main/java/med/voll/api/infra/security/TokenService.java:69-86 | A token that passes validation yields a non-null username. |
| TokenService.UsernameWithoutIssuerCheck | src/main/java/med/voll/api/infra/security/TokenService.java:80-83 | A token from another issuer fails validation but still yields its subject. |
| TokenService.IssuedTokenRoundTrip | src/main/java/med/voll/api/infra/security/TokenService.java:31-87 | An issued token that the library reads back validates, and its username is the user's login. |
| JwtFilter.HandleThrown | src/main/java/med/voll/api/infra/security/JwtAuthenticationFilter.java:39-64 | A thrown exception is answered with the status, code and message of the first catch clause that catches it, and escapes exactly when none does. |
| JwtFilter.FilterCatchesOutcome | src/main/java/med/voll/api/infra/security/JwtAuthenticationFilter.java:55-64 | Malformed gives 400 `ERR_MALFORMED_TOKEN`. Expired gives 401 `ERR_TOKEN_EXPIRED`. Any other JWT exception gives 401 `ERR_INVALID_TOKEN`. Every other exception escapes. |
| JwtFilter.DoFilterInternal | src/main/java/med/voll/api/infra/security/JwtAuthenticationFilter.java:33-68 | A missing or non-Bearer header passes anonymously. "Token inválido o expirado" is never sent. Only runtime and illegal-argument exceptions escape. An authenticated pass carries the stored user the validated token's subject names, with that user's authorities. |
| JwtFilter.MalformedAndExpiredRejected | src/main/java/med/voll/api/infra/security/JwtAuthenticationFilter.java:55-60 | A malformed bearer token gets 400 and an expired one gets 401, and the chain is not invoked. |
| JwtFilter.OtherJwtFailuresRejected | src/main/java/med/voll/api/infra/security/JwtAuthenticationFilter.java:61-63 | A bad signature or a wrong issuer gets 401 `ERR_INVALID_TOKEN` "Error al validar el token". |
| JwtFilter.NonJwtExceptionsEscape | src/main/java/med/voll/api/infra/security/JwtAuthenticationFilter.java:39-64 | A subject-less token raises a `RuntimeException`, and a token the library refuses with `IllegalArgumentException` (a null or empty string) raises that exception. No clause catches either, so both leave the filter. |
| JwtFilter.ValidTokenOutcome | src/main/java/med/voll/api/infra/security/JwtAuthenticationFilter.java:40-50 | A validated token authenticates the user its subject names. A subject naming no user passes anonymously. |
| JwtFilter.ElseBranchUnreachable | src/main/java/med/voll/api/infra/security/JwtAuthenticationFilter.java:51-53 | The 401 "Token inválido o expirado" response is never produced. |
| JwtFilter.VerifierSeesStrippedToken | src/main/java/med/voll/api/infra/security/JwtAuthenticationFilter.java:37-41 | The outcome depends only on what the parser says of the stripped token. |
| JwtFilter.DoubledPrefixRemoved | src/main/java/med/voll/api/infra/security/JwtAuthenticationFilter.java:37-38 | A doubled prefix is stripped twice: "Bearer Bearer x" reaches the verifier as "x". |
| JwtFilter.InteriorPrefixRemoved | src/main/java/med/voll/api/infra/security/JwtAuthenticationFilter.java:37-38 | A `"Bearer "` inside the token is cut out as well before the token reaches the verifier. |
| JwtFilter.CatchOrderMatters | src/main/java/med/voll/api/infra/security/JwtAuthenticationFilter.java:55-63 | With the generic clause first, a malformed token would get 401 instead of 400. |
| JwtFilter.AppendedIsJoinedPlusSeparator | src/main/java/med/voll/api/infra/security/JwtAuthenticationFilter.java:81-86 | The loop's output is the entries joined by ", " plus one trailing ", " that the trim removes. |
| JwtFilter.ConvertMapToJson | src/main/java/med/voll/api/infra/security/JwtAuthenticationFilter.java:79-89 | The loop builds the braces around the entries joined by ", ", and an empty map gives "{}". |
| JwtFilter.TwoEntries | src/main/java/med/voll/api/infra/security/JwtAuthenticationFilter.java:79-89 | A two-entry map is written as its two entries separated by ", ". |
| JwtFilter.SendErrorResponse | src/main/java/med/voll/api/infra/security/JwtAuthenticationFilter.java:70-77 | The error response has the given status and JSON content type. Its body is the code and message object, in one of the two map orders. |
| AccessPolicy.MatchesAnySmall | src/main/java/med/voll/api/infra/security/SecurityConfiguration.java:55 | A matcher with several patterns matches when one of them does. |
| AccessPolicy.SubtreeSecondChar | src/main/java/med/voll/api/infra/security/SecurityConfiguration.java:52-55 | A path in the `/x/**` subtree starts with the same two characters as `/x`. |
| AccessPolicy.Decide | src/main/java/med/voll/api/infra/security/SecurityConfiguration.java:50-56 | The first matching rule decides by its requirement, and a request matching no rule is let through. |
| AccessPolicy.RootsDisjoint | src/main/java/med/voll/api/infra/security/SecurityConfiguration.java:51-55 | The `/medicos` and `/pacientes` subtrees are disjoint, and `/login` is in neither. |
| AccessPolicy.DecidingRuleOf | src/main/java/med/voll/api/infra/security/SecurityConfiguration.java:51-56 | The line that decides each request is given by its method and path. |
| AccessPolicy.LoginAccess | src/main/java/med/voll/api/infra/security/SecurityConfiguration.java:51-56 | `POST /login` is open to every caller. `GET /login` needs an identity. |
| AccessPolicy.GetMedicosAccess | src/main/java/med/voll/api/infra/security/SecurityConfiguration.java:52 | A GET under `/medicos` is allowed iff the caller holds ROLE_ADMIN, ROLE_USER_MEDIC or ROLE_USER_PATIENT. |
| AccessPolicy.GetPacientesAccess | src/main/java/med/voll/api/infra/security/SecurityConfiguration.java:53 | A GET under `/pacientes` is allowed iff the caller holds ROLE_USER_MEDIC or ROLE_ADMIN, so a patient is refused. |
| AccessPolicy.WritePacientesAccess | src/main/java/med/voll/api/infra/security/SecurityConfiguration.java:54-55 | Any other method under `/pacientes` is allowed iff the caller holds ROLE_USER_MEDIC, so an admin alone is refused. |
| AccessPolicy.WriteMedicosAccess | src/main/java/med/voll/api/infra/security/SecurityConfiguration.java:55 | Any other method under `/medicos` is allowed iff the caller holds ROLE_ADMIN. |
| AccessPolicy.DefaultRequiresIdentity | src/main/java/med/voll/api/infra/security/SecurityConfiguration.java:56 | A request no specific line matches is allowed iff the caller is authenticated. |
| AccessPolicy.PacientesOnAdminLineDead | src/main/java/med/voll/api/infra/security/SecurityConfiguration.java:53-55 | The `/pacientes` pattern of the admin line never decides, and removing it changes no decision. |
| Autenticacion.Authenticate | src/main/java/med/voll/api/controller/AutenticacionController.java:51-57 | The manager authenticates exactly a stored login with a matching password and returns that user. Any failure is bad credentials. |
| Autenticacion.AutenticarUsuario | src/main/java/med/voll/api/controller/AutenticacionController.java:42-70 | An unknown login throws `UsernameNotFoundException`. A wrong password throws `BadCredentialsException`. Otherwise the reply is 200 `AUTH_SUCCESS` with the token issued for the stored user. |
| Autenticacion.LoginIssuesTokenForLogin | src/main/java/med/voll/api/controller/AutenticacionController.java:45-69 | A successful login returns a token whose subject reads back as the login asked for. |
| Autenticacion.LoginFailures | src/main/java/med/voll/api/controller/AutenticacionController.java:45-57 | A failed login throws one of the two credential exceptions. |
| GlobalErrorHandler.BuildErrorResponse | src/main/java/med/voll/api/infra/errors/GlobalErrorHandler.java:62-67 | The reply has the given status and a body of exactly `code` and `message`. |
| GlobalErrorHandler.FieldErrorMap | src/main/java/med/voll/api/infra/errors/GlobalErrorHandler.java:49-52 | The error map has one key per field that has an error. |
| GlobalErrorHandler.LastFieldErrorWins | src/main/java/med/voll/api/infra/errors/GlobalErrorHandler.java:50-52 | A field's message is that of its last error. |
| GlobalErrorHandler.Handle | src/main/java/med/voll/api/infra/errors/GlobalErrorHandler.java:28-83 | An exception gets a reply iff a handler exists for it. The status is 400, 401, 404 or 409, and the body has a string `code`. |
| GlobalErrorHandler.DuplicateRecord | src/main/java/med/voll/api/infra/errors/GlobalErrorHandler.java:28-34 | An integrity violation and any `IllegalStateException` get 409 `ERR_DUPLICATE_RECORD`. |
| GlobalErrorHandler.UnreadableMessage | src/main/java/med/voll/api/infra/errors/GlobalErrorHandler.java:36-43 | An unreadable body gets 400, with the speciality code iff the message mentions "Enum". |
| GlobalErrorHandler.ValidationFailure | src/main/java/med/voll/api/infra/errors/GlobalErrorHandler.java:45-59 | A validation failure gets 400 with code `ERR_VALIDATION_FAILED` and the per-field `errors`, and no `message`. |
| GlobalErrorHandler.RecordNotFound | src/main/java/med/voll/api/infra/errors/GlobalErrorHandler.java:69-75 | A missing entity gets 404 `ERR_RECORD_NOT_FOUND`. |
| GlobalErrorHandler.CredentialErrorsIndistinguishable | src/main/java/med/voll/api/infra/errors/GlobalErrorHandler.java:77-83 | An unknown login and a wrong password get the same 401 reply. |
| Medicos.FromRegistro | src/main/java/med/voll/api/domain/medico/Medico.java:45-56 | A new doctor has no id, is active, and copies the request data. |
| Medicos.ActualizarDatos | src/main/java/med/voll/api/domain/medico/Medico.java:58-69 | An update replaces exactly the non-null name, document and address, and keeps every other field. |
| Medicos.DesactivarMedico | src/main/java/med/voll/api/domain/medico/Medico.java:72-83 | Deactivation clears `activo` and changes nothing else. |
| Medicos.ActualizarNothingIsIdentity | src/main/java/med/voll/api/domain/medico/Medico.java:58-69 | An update with every argument null is the identity. |
| Medicos.ActualizarIdempotent | src/main/java/med/voll/api/domain/medico/Medico.java:58-69 | Applying the same name and document twice equals applying them once. |
| Medicos.DesactivarLaws | src/main/java/med/voll/api/domain/medico/Medico.java:58-83 | Deactivation is idempotent and commutes with an update. |
| Medicos.CopiesEqualSource | src/main/java/med/voll/api/domain/medico/Medico.java:16-21 | Updated and deactivated copies are equal to their source and hash alike. |
| Repository.FindByActivoTrue | src/main/java/med/voll/api/controller/MedicoController.java:33 | The listing holds exactly the active stored records, unchanged. |
| MedicoController.Save | src/main/java/med/voll/api/domain/medico/Medico.java:29-33 | A save succeeds iff no other row shares the email or document. It then stores the record under its id and changes nothing else. |
| MedicoController.ListaMedicos | src/main/java/med/voll/api/controller/MedicoController.java:31-34 | Listing shows exactly the active doctors. |
| MedicoController.RegistraMedico | src/main/java/med/voll/api/controller/MedicoController.java:36-60 | An existing (email, document) pair throws `IllegalStateException` and leaves the table. Registration succeeds iff the pair is new and the new record breaks no unique column; a failure is that exception or the integrity violation, with the table unchanged. On success the new active doctor is stored under the new id, with 201, the `Location` of that id and code `CREATED`. |
| MedicoController.ActualizaMedico | src/main/java/med/voll/api/controller/MedicoController.java:63-86 | An unknown id throws not-found. The update succeeds iff the id is stored and the updated record breaks no unique column; a failure is not-found or the integrity violation, with the table unchanged. On success the updated record replaces the stored one, and the 200 `UPDATED` reply carries that updated record. |
| MedicoController.DesactivaMedico | src/main/java/med/voll/api/controller/MedicoController.java:90-101 | An unknown id throws not-found. Otherwise the record stays, inactive, and the reply is 204 with no body. |
| Repository.ReadById | src/main/java/med/voll/api/controller/MedicoController.java:103-113 | Reading by id returns the stored record, active or not, with 200, and throws not-found exactly for an unknown id. This is the GET-by-id of both controllers; `retornaDatosPaciente` (PacienteController.java:102-112) is the same call. `MedicoController.RetornaDatosMedico` and `PacienteController.RetornaDatosPaciente` are this function applied to each table. |
| MedicoController.SaveKeepsConsistent | src/main/java/med/voll/api/domain/medico/Medico.java:29-33 | A successful save keeps the records under their own ids with unique emails and documents. |
| MedicoController.OperationsKeepConsistent | src/main/java/med/voll/api/controller/MedicoController.java:36-101 | Registration, update and deactivation keep that invariant. |
| MedicoController.SameEmailOtherDocumentRefused | src/main/java/med/voll/api/controller/MedicoController.java:39-44 | A reused email with a new document passes the pair check but is refused by the unique column. |
| MedicoController.RegisteredIsListedAndReadable | src/main/java/med/voll/api/controller/MedicoController.java:44-59 | A registered doctor is listed and readable, and its `Location` reads back as its id. |
| MedicoController.DeletedIsHiddenButReadable | src/main/java/med/voll/api/controller/MedicoController.java:90-113 | A soft-deleted doctor leaves the listing but is still readable, and deleting again changes nothing. |
| MedicoController.UpdateReplyShowsNewRecord | src/main/java/med/voll/api/controller/MedicoController.java:63-86 | The PUT reply shows the new name and document, and a later lookup by id returns the same record. |
| Pacientes.Listado | src/main/java/med/voll/api/domain/paciente/DatosListadoPaciente.java:1-15 | A listing row copies the id, name, email, document and phone of the patient. |
| PacienteController.ListadoPacientes | src/main/java/med/voll/api/controller/PacienteController.java:32-35 | Listing shows exactly the active patients, as listing rows. |
| PacienteController.RegistraPaciente | src/main/java/med/voll/api/controller/PacienteController.java:37-61 | An existing (email, document) pair throws `IllegalStateException` and leaves the table unchanged, and only then; registration succeeds exactly when the pair is new. Otherwise the new patient is stored under the new id, with 201 and code `CREATED`. |
| PacienteController.ActualizarPaciente | src/main/java/med/voll/api/controller/PacienteController.java:63-86 | An unknown id throws not-found, and only then. Otherwise the updated record replaces the stored one, and the 200 `UPDATED` reply carries that updated record. |
| PacienteController.DesactivaPaciente | src/main/java/med/voll/api/controller/PacienteController.java:89-100 | An unknown id throws not-found, and only then. Otherwise the deactivated copy replaces the record, with 204 and no body. |
| PacienteController.OperationsKeepWellFormed | src/main/java/med/voll/api/controller/PacienteController.java:37-100 | Every operation keeps records under their own ids and drops none. |
| PacienteController.UpdateReplyMatchesLookup | src/main/java/med/voll/api/controller/PacienteController.java:63-86 | The PUT reply carries the record a later lookup by id returns. |
| PacienteController.DeletedIsHiddenButReadable | src/main/java/med/voll/api/controller/PacienteController.java:89-112 | A soft-deleted patient leaves the listing but is still readable. |
| PacienteController.RegisteredIsReadable | src/main/java/med/voll/api/controller/PacienteController.java:45-60 | A registered patient is readable, and its `Location` reads back as its id. |
| RequestPipeline.CallerOf | src/main/java/med/voll/api/infra/security/JwtAuthenticationFilter.java:47-50 | The identity left for authorization is anonymous iff the filter set none, and otherwise it holds the filter's authorities. |
| RequestPipeline.Process | src/main/java/med/voll/api/infra/security/SecurityConfiguration.java:50-58 | The filter runs first, and its rejections and escapes end the request. Otherwise the rule list judges exactly the identity the filter left: a request is admitted iff the filter let it through and the rule list allows that identity. |
| RequestPipeline.BearerTokenOfPrefixed | src/main/java/med/voll/api/infra/security/JwtAuthenticationFilter.java:37-38 | A token with no "Bearer " inside reaches the verifier unchanged. |
| RequestPipeline.MalformedTokenRejectedEverywhere | src/main/java/med/voll/api/infra/security/JwtAuthenticationFilter.java:55-57 | A malformed token gets 400 on every route, before any rule is consulted. |
| RequestPipeline.NoHeaderOnlyLogin | src/main/java/med/voll/api/infra/security/SecurityConfiguration.java:51-56 | Without a header only `POST /login` is admitted. |
| RequestPipeline.LoginThenDelete | src/main/java/med/voll/api/controller/AutenticacionController.java:57-69 | The token from a login admits a doctor delete iff the role is ROLE_ADMIN, and a patient delete iff it is ROLE_USER_MEDIC. |
| RequestPipeline.UnprefixedRoleLockedOut | src/main/java/med/voll/api/domain/usuario/Usuario.java:42-46 | A role named without `ROLE_` is refused on every `/medicos` and `/pacientes` route. |

## Left out

- JWT signing, serialisation, signature checking and the expiry comparison belong to the JWT library. They are the `parse`/`encode` parameters, so the exact expiry boundary is not modelled.
- The `iat` and `exp` claims are kept in milliseconds, as the source computes them. The library's conversion to whole seconds is not modelled.
- `getSecretKey` and the derivation of the HMAC key from the secret are not modelled: they concern the key, which is hidden inside `parse`/`encode`.
- BCrypt is the uninterpreted `matches` parameter. The `PasswordEncoder` and `AuthenticationManager` beans are its wiring.
- The user details service is not part of this model. The authentication manager is assumed to load users by login, as the filter does.
- Servlet plumbing is not modelled: the `SecurityContextHolder`, the filter chain call, the response writer and the CSRF and session settings. The filter's effect is a `FilterResult`.
- The 401/403 response Spring writes when the rule list refuses a caller is not part of this model. The refusal is `RequestPipeline.Gate.Denied`.
- Ant path matching is reduced to exact paths and `/x/**` subtrees. That covers every pattern the rule list uses.
- `@EnableMethodSecurity` is not modelled, because no modelled handler carries a method-level annotation.
- Bean Validation (`@Valid`) and JSON request binding are not modelled. Their failures reach the model only as the exceptions `GlobalErrorHandler` translates.
- Paging and sorting of the listings are not modelled. A listing is the set of active records keyed by id.
- The `DatosRespuestaMedico`/`DatosRespuestaPaciente` DTOs are represented by the record they are built from.
- The address class, the speciality enum and its converter, the `Paciente` class and `RoleEnum` are not part of this model. Their operations are parameters or opaque values. `Especialidad.fromValue(x.toValue())` is taken as the identity.
- The order in which a `HashMap` iterates is a parameter (`codeFirst`) of `JwtFilter.SendErrorResponse`. Keys and values are written without JSON escaping, as the source does.
- The commented-out older rule list and the commented-out hard-delete endpoint are not modelled.
- MedicoController.RegistraMedico: requires a positive id that is not yet stored. This stands for the identity column generating a fresh id.
- PacienteController.RegistraPaciente: requires a positive id that is not yet stored, for the same reason. No unique columns are known for the patient table, so a save never fails there.
- MedicoController.ActualizaMedico: requires the table invariant, which is that records are stored under their own ids with unique email and document. A table the application built itself always meets it (`MedicoController.OperationsKeepConsistent`).
- MedicoController.DesactivaMedico: requires the same invariant as `ActualizaMedico`.
- PacienteController.ActualizarPaciente: requires that records are stored under their own ids and that the patient operations keep the id. These are properties of the `Paciente` class, which is not part of this model.
- PacienteController.DesactivaPaciente: requires the same as `ActualizarPaciente`.
- PacienteController.DeletedIsHiddenButReadable: assumes the patient's deactivation clears `activo`, as the controller's comment states. The class is not part of this model.
- Concurrency is not modelled. Each controller call is one atomic step on the table.
- MedicoController.Save: a unique-column violation is thrown by the save itself. For `registraMedico` that is what the source does: the handler is not transactional and the id is generated by the database, so the insert runs inside `save`. In the two `@Transactional` handlers, `ActualizaMedico` and `DesactivaMedico`, the violation surfaces when the transaction flushes, after the reply is built, and the failed commit replaces that reply. The observable result is the same: the handler's 409 and an unchanged table.
- MedicoController.Save: throws `SqlIntegrityViolation` directly. In the source Spring translates the driver's error into `DataIntegrityViolationException`. The 409 handler for `SQLIntegrityConstraintViolationException` then applies only through cause matching, and only with a driver that raises that class.
- JwtFilter.DoFilterInternal: `validarToken` and `getUsernameFromToken` parse the token twice, each time against the clock. The model has one `parse` outcome for both, so a token that expires between the two parses is not modelled. In the source the second parse would answer 401 `ERR_TOKEN_EXPIRED`.
- Paging defaults are not modelled. The doctor listing's `@PageableDefault(size = 2, page = 1, sort = "nombre")` shows, by default, the second page of two doctors by name. The patient listing's `@PageableDefault(sort = "nombre")` shows the first page of ten patients by name.
- MedicoController.Location: the path only. The source builds an absolute URI from the request's base URL. PacienteController.Location is the same.

=== FILE: autenticacion.dfy ===
/** `AutenticacionController.autenticarUsuario`: look the user up, let the
    authentication manager check the password, issue a token. The manager is
    Spring's DAO provider: it loads the user by login, runs the account
    checks and compares the password with an uninterpreted
    `matches(clear, hash)` (BCrypt). */
module Autenticacion {
  import opened Common
  import opened Usuarios
  import opened TokenService

  /** The login request body: `login` and `clave` (the password). */
  datatype DatosAutenticacionUsuario = DatosAutenticacionUsuario(login: string, clave: string)

  /** The success response: status and a string-to-string body. */
  datatype LoginReply = LoginReply(status: int, body: map<string, string>)


  /** `authenticationManager.authenticate(new UsernamePasswordAuthenticationToken(login, clave))`.
      An unknown login is reported as bad credentials, as the provider hides
      `UsernameNotFoundException`. */
  function Authenticate(users: UserStore, login: string, clave: string, matches: (string, string) -> bool): (r: Outcome<Usuario>)
    ensures r.Ok? <==> login in users && matches(clave, users[login].clave)
    ensures r.Ok? ==> r.value == users[login]
    ensures r.Throw? ==> r.exc == BadCredentials
  {
    match FindByLogin(users, login)
    case None => Throw(BadCredentials)
    case Some(u) =>
      if !IsAccountNonLocked(u) then Throw(AccountStatus("locked"))
      else if !IsEnabled(u) then Throw(AccountStatus("disabled"))
      else if !IsAccountNonExpired(u) then Throw(AccountStatus("expired"))
      else if !matches(clave, GetPassword(u)) then Throw(BadCredentials)
      else if !IsCredentialsNonExpired(u) then Throw(AccountStatus("credentials expired"))
      else Ok(u)
  }

  /** `autenticarUsuario(datos)`, with `now` the clock reading and `encode`
      the library's signing and compact serialisation. */
  function AutenticarUsuario(users: UserStore, datos: DatosAutenticacionUsuario, matches: (string, string) -> bool,
                             now: Long, encode: Claims -> string): (r: Outcome<LoginReply>)
    ensures r.Throw? && r.exc.UsernameNotFound? <==> datos.login !in users
    ensures r == Throw(BadCredentials) <==> datos.login in users && !matches(datos.clave, users[datos.login].clave)
    ensures r.Ok? <==> datos.login in users && matches(datos.clave, users[datos.login].clave)
    ensures r.Ok? ==>
              && r.value.status == HTTP_OK
              && r.value.body.Keys == {"code", "message", "authenticationToken"}
              && r.value.body["code"] == "AUTH_SUCCESS"
              && r.value.body["authenticationToken"] == encode(GerarToken(users[datos.login], now))
  {
    match FindByLogin(users, datos.login)
    case None => Throw(UsernameNotFound("Usuario no encontrado"))
    case Some(_) =>
      match Authenticate(users, datos.login, datos.clave, matches)
      case Throw(e) => Throw(e)
      case Ok(principal) =>
        var jwtToken := encode(GerarToken(principal, now));
        Ok(LoginReply(HTTP_OK, map[
          "code" := "AUTH_SUCCESS",
          "message" := "Autenticación exitosa.",
          "authenticationToken" := jwtToken
        ]))
  }

  /** The spec of a login attempt: a stored user with a matching password
      gets a token whose subject is the login it asked for, which the
      library reads back as that login; every other attempt fails with one of
      the two credential errors and no token. */
  lemma LoginIssuesTokenForLogin(users: UserStore, datos: DatosAutenticacionUsuario, matches: (string, string) -> bool,
                                 now: Long, encode: Claims -> string, parse: string -> ParseOutcome)
    requires WellFormedStore(users)
    requires datos.login in users && matches(datos.clave, users[datos.login].clave)
    requires parse(encode(GerarToken(users[datos.login], now))) == Valid(GerarToken(users[datos.login], now))
    ensures var r := AutenticarUsuario(users, datos, matches, now, encode);
            && r.Ok?
            && Subject(GerarToken(users[datos.login], now)) == Some(datos.login)
            && GetUsernameFromToken(parse, r.value.body["authenticationToken"]) == Ok(Some(datos.login))
  {
    IssuedTokenRoundTrip(users[datos.login], now, encode, parse);
  }

  /** A failed login is always one of the two credential errors. */
  lemma LoginFailures(users: UserStore, datos: DatosAutenticacionUsuario, matches: (string, string) -> bool,
                      now: Long, encode: Claims -> string)
    ensures var r := AutenticarUsuario(users, datos, matches, now, encode);
            r.Throw? ==> r.exc == BadCredentials || r.exc == UsernameNotFound("Usuario no encontrado")
  {
  }
}

=== FILE: common.dfy ===
/** Shared vocabulary of the clinic API model: nullable values, Java's `long`,
    the exceptions the modelled code throws or catches, and the outcome of a
    call that may throw. */
module Common {

  /** A Java reference that may be null. */
  datatype Option<+T> = None | Some(value: T)

  const TWO_31: int := 0x8000_0000
  const TWO_32: int := 0x1_0000_0000
  const TWO_63: int := 0x8000_0000_0000_0000
  const TWO_64: int := 0x1_0000_0000_0000_0000

  /** Java's `long` / `Long` value range. */
  type Long = x: int | -TWO_63 <= x < TWO_63

  /** The `200 OK` status of a successful reply. */
  const HTTP_OK: int := 200

  /** The `400 Bad Request` status of a refused request. */
  const HTTP_BAD_REQUEST: int := 400

  /** The `401 Unauthorized` status of a missing or failed identity. */
  const HTTP_UNAUTHORIZED: int := 401

  /** Java's `int` value range. */
  predicate IsInt32(x: int) {
    -TWO_31 <= x < TWO_31
  }

  /** Two's-complement wrap-around of an integer into Java's `int`. */
  function WrapInt32(x: int): (r: int)
    ensures IsInt32(r)
    ensures (r - x) % TWO_32 == 0
    ensures IsInt32(x) ==> r == x
  {
    var u := x % TWO_32;
    if u >= TWO_31 then u - TWO_32 else u
  }

  /** Two's-complement wrap-around of an integer into Java's `long`. */
  function WrapLong(x: int): (r: Long)
    ensures (r - x) % TWO_64 == 0
    ensures -TWO_63 <= x < TWO_63 ==> r == x
  {
    var u := x % TWO_64;
    if u >= TWO_63 then u - TWO_64 else u
  }

  /** Bitwise exclusive or of two non-negative integers, bit by bit from
      the least significant. */
  function XorNat(a: nat, b: nat): (r: nat)
    ensures b == 0 ==> r == a
    ensures a == b ==> r == 0
    decreases a + b
  {
    if a == 0 && b == 0 then 0
    else 2 * XorNat(a / 2, b / 2) + (if a % 2 == b % 2 then 0 else 1)
  }

  /** `Long.hashCode()`: the high and low 32-bit halves of the two's
      complement bits xor-ed, read as an `int`. */
  function LongHashCode(v: Long): (h: int)
    ensures IsInt32(h)
    ensures 0 <= v < TWO_31 ==> h == v
    ensures v == -1 ==> h == 0
  {
    var u := v % TWO_64;
    WrapInt32(XorNat(u % TWO_32, u / TWO_32))
  }

  /** Lombok's `hashCode()` for `@EqualsAndHashCode(of = "id")` with a `Long id`:
      `1 * 59 + (id == null ? 43 : id.hashCode())`. */
  function IdHashCode(id: Option<Long>): (h: int)
    ensures IsInt32(h)
    ensures id.None? ==> h == 102
    ensures id.Some? && 0 <= id.value < TWO_31 - 59 ==> h == 59 + id.value
  {
    WrapInt32(59 + (match id case None => 43 case Some(v) => LongHashCode(v)))
  }

  /** A field-level validation error reported by Bean Validation. */
  datatype FieldError = FieldError(field: string, defaultMessage: string)

  /** The exceptions that the modelled code throws, propagates or catches. */
  datatype Exception =
      // jjwt: io.jsonwebtoken.MalformedJwtException
    | MalformedJwt
      // jjwt: io.jsonwebtoken.ExpiredJwtException
    | ExpiredJwt
      // any other io.jsonwebtoken.JwtException (bad signature, unsupported
      // token, issuer claim missing or different)
    | OtherJwt
      // java.lang.IllegalArgumentException (jjwt, for an empty token string)
    | IllegalArgument
      // java.lang.RuntimeException thrown directly by the code
    | Runtime(message: string)
    | UsernameNotFound(message: string)
    | BadCredentials
      // Spring's AccountStatusException family (locked, disabled, expired)
    | AccountStatus(reason: string)
    | IllegalState(message: string)
    | SqlIntegrityViolation
    | MessageNotReadable(message: string)
    | ArgumentNotValid(fieldErrors: seq<FieldError>)
    | EntityNotFound(message: string)
  {
    /** `e instanceof io.jsonwebtoken.JwtException` */
    predicate IsJwtException() {
      MalformedJwt? || ExpiredJwt? || OtherJwt?
    }
  }

  /** The result of a Java call that either returns a value or throws. */
  datatype Outcome<+T> = Ok(value: T) | Throw(exc: Exception)

  /** Index of the first element satisfying `p`, or `|xs|` when none does:
      the selection rule of an ordered list of rules or catch clauses. */
  function FirstIndex<T>(xs: seq<T>, p: T -> bool): (i: nat)
    ensures i <= |xs|
    ensures i < |xs| ==> p(xs[i])
    ensures forall j :: 0 <= j < i ==> !p(xs[j])
    decreases |xs|
  {
    if |xs| == 0 then 0 else if p(xs[0]) then 0 else 1 + FirstIndex(xs[1..], p)
  }

  /** The first-match index is determined by the two facts that define it. */
  lemma FirstIndexUnique<T>(xs: seq<T>, p: T -> bool, i: nat)
    requires i < |xs| && p(xs[i])
    requires forall j :: 0 <= j < i ==> !p(xs[j])
    ensures FirstIndex(xs, p) == i
  {
  }
}

=== FILE: global_error_handler.dfy ===
/** `GlobalErrorHandler`: the translation of an exception a controller throws
    into an HTTP status and a JSON body. */
module GlobalErrorHandler {
  import opened Common
  import opened Text

  /** A body value: a string, or the field-to-message map of a validation
      failure. */
  datatype BodyValue = Str(text: string) | FieldMessages(messages: map<string, string>)

  datatype ErrorReply = ErrorReply(status: int, body: map<string, BodyValue>)

  const NOT_FOUND: int := 404
  const CONFLICT: int := 409

  /** `buildErrorResponse(code, message, status)`. */
  function BuildErrorResponse(code: string, message: string, status: int): (r: ErrorReply)
    ensures r.status == status
    ensures r.body.Keys == {"code", "message"}
    ensures r.body["code"] == Str(code) && r.body["message"] == Str(message)
  {
    ErrorReply(status, map["code" := Str(code), "message" := Str(message)])
  }

  /** The field errors put one by one into a map; a later error on a field
      replaces an earlier one. */
  function FieldErrorMap(errors: seq<FieldError>): (m: map<string, string>)
    ensures m.Keys == set i | 0 <= i < |errors| :: errors[i].field
    decreases |errors|
  {
    if |errors| == 0 then
      map[]
    else
      var last := errors[|errors| - 1];
      var m0 := FieldErrorMap(errors[..|errors| - 1]);
      assert forall i :: 0 <= i < |errors| - 1 ==> errors[..|errors| - 1][i] == errors[i];
      m0[last.field := last.defaultMessage]
  }

  /** The message kept for a field is that of its last error. */
  lemma {:induction false} LastFieldErrorWins(errors: seq<FieldError>, i: nat)
    requires i < |errors|
    requires forall j :: i < j < |errors| ==> errors[j].field != errors[i].field
    ensures FieldErrorMap(errors)[errors[i].field] == errors[i].defaultMessage
    decreases |errors|
  {
    if i < |errors| - 1 {
      var init := errors[..|errors| - 1];
      assert init[i] == errors[i];
      LastFieldErrorWins(init, i);
    }
  }

  /** The exception kinds that have an `@ExceptionHandler`. */
  predicate Handled(e: Exception) {
    e.SqlIntegrityViolation? || e.IllegalState? || e.MessageNotReadable? || e.ArgumentNotValid?
    || e.EntityNotFound? || e.BadCredentials? || e.UsernameNotFound?
  }

  /** The response for a handled exception; none for the others. */
  function Handle(e: Exception): (r: Option<ErrorReply>)
    ensures r.Some? <==> Handled(e)
    ensures r.Some? ==> r.value.status in {HTTP_BAD_REQUEST, HTTP_UNAUTHORIZED, NOT_FOUND, CONFLICT}
    ensures r.Some? ==> "code" in r.value.body && r.value.body["code"].Str?
    ensures r.Some? && !e.ArgumentNotValid? ==> r.value.body.Keys == {"code", "message"}
  {
    match e
    case SqlIntegrityViolation =>
      Some(BuildErrorResponse("ERR_DUPLICATE_RECORD", "Ya existe un registro con este correo o documento.", CONFLICT))
    case IllegalState(_) =>
      Some(BuildErrorResponse("ERR_DUPLICATE_RECORD", "Ya existe un registro con este correo o documento.", CONFLICT))
    case MessageNotReadable(message) =>
      if Contains(message, "Enum") then
        Some(BuildErrorResponse("ERR_INVALID_SPECIALITY", "La especialidad ingresada no es válida.", HTTP_BAD_REQUEST))
      else
        Some(BuildErrorResponse("ERR_INVALID_REQUEST", "Solicitud inválida.", HTTP_BAD_REQUEST))
    case ArgumentNotValid(errors) =>
      Some(ErrorReply(HTTP_BAD_REQUEST, map["code" := Str("ERR_VALIDATION_FAILED"), "errors" := FieldMessages(FieldErrorMap(errors))]))
    case EntityNotFound(_) =>
      Some(BuildErrorResponse("ERR_RECORD_NOT_FOUND", "El recurso solicitado no fue encontrado.", NOT_FOUND))
    case BadCredentials =>
      Some(BuildErrorResponse("ERR_INVALID_CREDENTIALS", "Credenciales inválidas. Verifica tu login y/o clave.", HTTP_UNAUTHORIZED))
    case UsernameNotFound(_) =>
      Some(BuildErrorResponse("ERR_INVALID_CREDENTIALS", "Credenciales inválidas. Verifica tu login y/o clave.", HTTP_UNAUTHORIZED))
    case _ => None
  }

  /** The `code` a handled exception is answered with. */
  function CodeOf(e: Exception): (code: string)
    requires Handled(e)
  {
    Handle(e).value.body["code"].text
  }

  /** Integrity violations and every `IllegalStateException`, whatever its
      message, are 409 `ERR_DUPLICATE_RECORD`. */
  lemma DuplicateRecord(message: string)
    ensures Handle(SqlIntegrityViolation).value.status == CONFLICT
    ensures Handle(IllegalState(message)) == Handle(SqlIntegrityViolation)
    ensures CodeOf(IllegalState(message)) == "ERR_DUPLICATE_RECORD"
  {
  }

  /** An unreadable body is 400; its code says "invalid speciality" exactly
      when the message mentions `Enum`. */
  lemma UnreadableMessage(message: string)
    ensures Handle(MessageNotReadable(message)).value.status == HTTP_BAD_REQUEST
    ensures CodeOf(MessageNotReadable(message)) == "ERR_INVALID_SPECIALITY" <==> Contains(message, "Enum")
    ensures CodeOf(MessageNotReadable(message)) == "ERR_INVALID_REQUEST" <==> !Contains(message, "Enum")
  {
  }

  /** A validation failure is 400 with the code and the per-field messages,
      and no `message` key. */
  lemma ValidationFailure(errors: seq<FieldError>)
    ensures var r := Handle(ArgumentNotValid(errors)).value;
            && r.status == HTTP_BAD_REQUEST
            && r.body.Keys == {"code", "errors"}
            && r.body["code"] == Str("ERR_VALIDATION_FAILED")
            && r.body["errors"] == FieldMessages(FieldErrorMap(errors))
  {
  }

  /** A missing entity is 404 `ERR_RECORD_NOT_FOUND`. */
  lemma RecordNotFound(message: string)
    ensures Handle(EntityNotFound(message)).value.status == NOT_FOUND
    ensures CodeOf(EntityNotFound(message)) == "ERR_RECORD_NOT_FOUND"
  {
  }

  /** A wrong password and an unknown login get the same 401 response, so a
      client cannot tell which one happened. */
  lemma CredentialErrorsIndistinguishable(message: string)
    ensures Handle(BadCredentials) == Handle(UsernameNotFound(message))
    ensures Handle(BadCredentials).value.status == HTTP_UNAUTHORIZED
    ensures CodeOf(BadCredentials) == "ERR_INVALID_CREDENTIALS"
  {
  }
}

=== FILE: jwt_filter.dfy ===
/** `JwtAuthenticationFilter`: the per-request decision that turns an
    `Authorization` header into an anonymous pass, an authenticated pass, or
    an error response, together with the JSON writer for that response. */
module JwtFilter {
  import opened Common
  import opened Text
  import opened Usuarios
  import opened TokenService

  const BEARER: string := "Bearer "

  /** What `doFilterInternal` does with one request. */
  datatype FilterResult =
      // the chain is invoked with no authentication set
    | PassAnonymous
      // the authentication is set, then the chain is invoked
    | PassAuthenticated(principal: Usuario, authorities: seq<string>)
      // an error response is written and the chain is not invoked
    | Reject(status: int, code: string, message: string)
      // an exception no catch clause handles leaves the filter
    | Escape(exc: Exception)

  /** One `catch` clause of the filter and the response it sends. */
  datatype CatchClause = CatchClause(catches: Exception -> bool, status: int, code: string, message: string)

  /** The filter's catch clauses, in source order. */
  const FilterCatches: seq<CatchClause> := [
    CatchClause((e: Exception) => e.MalformedJwt?, HTTP_BAD_REQUEST, "ERR_MALFORMED_TOKEN", "Token mal formado"),
    CatchClause((e: Exception) => e.ExpiredJwt?, HTTP_UNAUTHORIZED, "ERR_TOKEN_EXPIRED", "El token ha expirado"),
    CatchClause((e: Exception) => e.IsJwtException(), HTTP_UNAUTHORIZED, "ERR_INVALID_TOKEN", "Error al validar el token")
  ]

  /** Java's try/catch: the first clause whose type the exception is an
      instance of handles it; otherwise it propagates. */
  function HandleThrown(clauses: seq<CatchClause>, e: Exception): (r: FilterResult)
    ensures r.Reject? || r == Escape(e)
    ensures r.Escape? <==> forall j :: 0 <= j < |clauses| ==> !clauses[j].catches(e)
    ensures r.Reject? ==>
              exists i :: 0 <= i < |clauses| && clauses[i].catches(e)
                          && (forall j :: 0 <= j < i ==> !clauses[j].catches(e))
                          && r == Reject(clauses[i].status, clauses[i].code, clauses[i].message)
  {
    var i := FirstIndex(clauses, (c: CatchClause) => c.catches(e));
    if i < |clauses| then Reject(clauses[i].status, clauses[i].code, clauses[i].message) else Escape(e)
  }

  /** Which response each exception gets from the filter's clauses. */
  lemma FilterCatchesOutcome(e: Exception)
    ensures HandleThrown(FilterCatches, e) ==
              if e.MalformedJwt? then Reject(HTTP_BAD_REQUEST, "ERR_MALFORMED_TOKEN", "Token mal formado")
              else if e.ExpiredJwt? then Reject(HTTP_UNAUTHORIZED, "ERR_TOKEN_EXPIRED", "El token ha expirado")
              else if e.IsJwtException() then Reject(HTTP_UNAUTHORIZED, "ERR_INVALID_TOKEN", "Error al validar el token")
              else Escape(e)
  {
    var p := (c: CatchClause) => c.catches(e);
    if e.MalformedJwt? {
      FirstIndexUnique(FilterCatches, p, 0);
    } else if e.ExpiredJwt? {
      FirstIndexUnique(FilterCatches, p, 1);
    } else if e.IsJwtException() {
      FirstIndexUnique(FilterCatches, p, 2);
    }
  }

  /** The token handed to the verifier: the header with every `"Bearer "`
      removed (`String.replace`). */
  function BearerToken(header: string): (token: string) {
    RemoveAll(header, BEARER)
  }

  /** `doFilterInternal` for a request whose `Authorization` header is
      `authorization` (null when absent). */
  function DoFilterInternal(authorization: Option<string>, parse: string -> ParseOutcome, users: UserStore): (r: FilterResult)
    ensures authorization.None? || !StartsWith(authorization.value, BEARER) ==> r == PassAnonymous
    ensures r.Reject? ==> r.message != "Token inválido o expirado"
    ensures r.Escape? ==> r.exc.Runtime? || r.exc.IllegalArgument?
    ensures r.PassAuthenticated? ==>
              && authorization.Some?
              && ValidarToken(parse, BearerToken(authorization.value)) == Ok(true)
              && (var login := Subject(parse(BearerToken(authorization.value)).claims);
                  login.Some? && login.value in users && users[login.value] == r.principal)
              && r.authorities == GetAuthorities(r.principal)
  {
    match authorization
    case None => PassAnonymous
    case Some(header) =>
      if !StartsWith(header, BEARER) then
        PassAnonymous
      else
        var token := BearerToken(header);
        match ValidarToken(parse, token)
        case Throw(e) => FilterCatchesOutcome(e); HandleThrown(FilterCatches, e)
        case Ok(valid) =>
          if valid then
            match GetUsernameFromToken(parse, token)
            case Throw(e) => FilterCatchesOutcome(e); HandleThrown(FilterCatches, e)
            case Ok(username) =>
              var usuario := if username.Some? then FindByLogin(users, username.value) else None;
              if usuario.Some? then
                PassAuthenticated(usuario.value, GetAuthorities(usuario.value))
              else
                PassAnonymous
          else
            Reject(HTTP_UNAUTHORIZED, "ERR_INVALID_TOKEN", "Token inválido o expirado")
  }

  /** A header carrying a bearer token, and what the verifier says of it. */
  predicate BearerWith(authorization: Option<string>, parse: string -> ParseOutcome, outcome: ParseOutcome) {
    && authorization.Some?
    && StartsWith(authorization.value, BEARER)
    && parse(BearerToken(authorization.value)) == outcome
  }

  /** A malformed token is answered 400, an expired one 401; both are
      caught before the generic JWT clause and the chain is not invoked. */
  lemma MalformedAndExpiredRejected(authorization: Option<string>, parse: string -> ParseOutcome, users: UserStore)
    ensures BearerWith(authorization, parse, Malformed) ==>
              DoFilterInternal(authorization, parse, users) == Reject(400, "ERR_MALFORMED_TOKEN", "Token mal formado")
    ensures BearerWith(authorization, parse, Expired) ==>
              DoFilterInternal(authorization, parse, users) == Reject(401, "ERR_TOKEN_EXPIRED", "El token ha expirado")
  {
    FilterCatchesOutcome(MalformedJwt);
    FilterCatchesOutcome(ExpiredJwt);
  }

  /** Any other JWT failure, including a token from another issuer, is
      answered 401 `ERR_INVALID_TOKEN`. */
  lemma OtherJwtFailuresRejected(authorization: Option<string>, parse: string -> ParseOutcome, users: UserStore)
    requires authorization.Some? && StartsWith(authorization.value, BEARER)
    requires var p := parse(BearerToken(authorization.value));
             p.OtherJwtError? || (p.Valid? && Issuer(p.claims) != Some(ISSUER))
    ensures DoFilterInternal(authorization, parse, users) == Reject(401, "ERR_INVALID_TOKEN", "Error al validar el token")
  {
  }

  /** A well-signed token without a subject makes `validarToken` throw a
      plain `RuntimeException`, which no clause catches; so does the
      library's `IllegalArgumentException` for an empty token. */
  lemma NonJwtExceptionsEscape(authorization: Option<string>, parse: string -> ParseOutcome, users: UserStore)
    requires authorization.Some? && StartsWith(authorization.value, BEARER)
    ensures var p := parse(BearerToken(authorization.value));
            p.Valid? && Issuer(p.claims) == Some(ISSUER) && Subject(p.claims).None? ==>
              DoFilterInternal(authorization, parse, users) == Escape(Runtime("Verifier invalid"))
    ensures parse(BearerToken(authorization.value)).IllegalArgument? ==>
              DoFilterInternal(authorization, parse, users) == Escape(Exception.IllegalArgument)
  {
  }

  /** A valid token authenticates the user its subject names, with that
      user's authorities; a subject naming no user passes anonymously. */
  lemma ValidTokenOutcome(authorization: Option<string>, parse: string -> ParseOutcome, users: UserStore)
    requires authorization.Some? && StartsWith(authorization.value, BEARER)
    requires ValidarToken(parse, BearerToken(authorization.value)).Ok?
    ensures var login := Subject(parse(BearerToken(authorization.value)).claims).value;
            DoFilterInternal(authorization, parse, users) ==
              if login in users then PassAuthenticated(users[login], GetAuthorities(users[login])) else PassAnonymous
  {
  }

  /** The filter never sends the 401 "Token inválido o expirado" response:
      `validarToken` returns true or throws. */
  lemma ElseBranchUnreachable(authorization: Option<string>, parse: string -> ParseOutcome, users: UserStore)
    ensures DoFilterInternal(authorization, parse, users) != Reject(401, "ERR_INVALID_TOKEN", "Token inválido o expirado")
  {
  }

  /** Only the text left after removing every `"Bearer "` reaches the
      verifier. */
  lemma VerifierSeesStrippedToken(h: string, parse1: string -> ParseOutcome, parse2: string -> ParseOutcome, users: UserStore)
    requires parse1(BearerToken(h)) == parse2(BearerToken(h))
    ensures DoFilterInternal(Some(h), parse1, users) == DoFilterInternal(Some(h), parse2, users)
  {
  }

  /** A doubled prefix is removed twice. */
  lemma DoubledPrefixRemoved()
    ensures BearerToken("Bearer Bearer x") == "x"
  {
    RemoveAllLeading(BEARER, "Bearer x");
    RemoveAllLeading(BEARER, "x");
    assert !Contains("x", BEARER);
  }

  /** The prefix is removed wherever it occurs, not only at the start:
      a `"Bearer "` inside the token is cut out as well. */
  lemma InteriorPrefixRemoved()
    ensures BearerToken("Bearer a.Bearer b") == "a.b"
  {
    RemoveAllInterior();
  }

  /** Catch order matters: with the generic `JwtException` clause first, a
      malformed token would be answered 401 instead of 400. */
  lemma CatchOrderMatters()
    ensures HandleThrown(FilterCatches, MalformedJwt) == Reject(400, "ERR_MALFORMED_TOKEN", "Token mal formado")
    ensures HandleThrown([FilterCatches[2], FilterCatches[0], FilterCatches[1]], MalformedJwt) ==
              Reject(401, "ERR_INVALID_TOKEN", "Error al validar el token")
  {
  }

  // ---------------------------------------------------------------------
  // Error response writer

  /** One map entry, key and value. */
  type Entry = (string, string)

  /** `"key": "value"`, with no escaping of either part. */
  function EntryJson(e: Entry): (json: string) {
    "\"" + e.0 + "\": \"" + e.1 + "\""
  }

  /** The entries' JSON, separated by `", "`. */
  function JoinEntries(es: seq<Entry>): (joined: string) {
    if |es| == 0 then ""
    else if |es| == 1 then EntryJson(es[0])
    else JoinEntries(es[..|es| - 1]) + ", " + EntryJson(es[|es| - 1])
  }

  /** The JSON object a map serialises to, its entries in iteration order. */
  function MapToJson(es: seq<Entry>): (json: string) {
    "{" + JoinEntries(es) + "}"
  }

  /** Every entry followed by `", "`: what the loop has built after the
      entries `es`. */
  function Appended(es: seq<Entry>): (s: string)
    ensures |es| == 0 <==> |s| == 0
  {
    if |es| == 0 then "" else Appended(es[..|es| - 1]) + EntryJson(es[|es| - 1]) + ", "
  }

  lemma {:induction false} AppendedIsJoinedPlusSeparator(es: seq<Entry>)
    requires |es| > 0
    ensures Appended(es) == JoinEntries(es) + ", "
    decreases |es|
  {
    if |es| > 1 {
      AppendedIsJoinedPlusSeparator(es[..|es| - 1]);
      assert es[..|es| - 1][..|es| - 2] == es[..|es| - 2];
    }
  }

  /** `convertMapToJson`: append `"k": "v", ` per entry, drop the trailing
      separator if anything was appended, close the brace. */
  method ConvertMapToJson(entries: seq<Entry>) returns (json: string)
    ensures json == MapToJson(entries)
    ensures |entries| == 0 ==> json == "{}"
  {
    json := "{";
    var i := 0;
    while i < |entries|
      invariant 0 <= i <= |entries|
      invariant json == "{" + Appended(entries[..i])
    {
      assert entries[..i + 1][..i] == entries[..i];
      json := json + "\"" + entries[i].0 + "\": \"" + entries[i].1 + "\", ";
      i := i + 1;
    }
    assert entries[..i] == entries;
    if |json| > 1 {
      AppendedIsJoinedPlusSeparator(entries);
      json := json[..|json| - 2];
    }
    json := json + "}";
  }

  /** A two-entry map is written as its two entries joined by `", "`. */
  lemma TwoEntries(a: Entry, b: Entry)
    ensures MapToJson([a, b]) == "{" + EntryJson(a) + ", " + EntryJson(b) + "}"
  {
    assert [a, b][..1] == [a];
    assert JoinEntries([a, b]) == EntryJson(a) + ", " + EntryJson(b);
    assert "{" + (EntryJson(a) + ", " + EntryJson(b)) + "}" == "{" + EntryJson(a) + ", " + EntryJson(b) + "}";
  }

  /** A response written by `sendErrorResponse`. */
  datatype ErrorResponse = ErrorResponse(status: int, contentType: string, body: string)

  /** `sendErrorResponse`: a two-entry map `code`/`message` written as JSON;
      `codeFirst` stands for the map's unspecified iteration order. */
  method SendErrorResponse(status: int, code: string, message: string, codeFirst: bool) returns (r: ErrorResponse)
    ensures r.status == status && r.contentType == "application/json"
    ensures r.body == "{" + EntryJson(("code", code)) + ", " + EntryJson(("message", message)) + "}"
         || r.body == "{" + EntryJson(("message", message)) + ", " + EntryJson(("code", code)) + "}"
  {
    var entries := if codeFirst then [("code", code), ("message", message)] else [("message", message), ("code", code)];
    var body := ConvertMapToJson(entries);
    TwoEntries(entries[0], entries[1]);
    assert entries == [entries[0], entries[1]];
    r := ErrorResponse(status, "application/json", body);
  }
}

=== FILE: medico.dfy ===
/** The doctor record `Medico`: an immutable entity whose updates return new
    copies. The address class and the speciality enum are not part of this
    model: an address is an opaque value and its own update is a parameter. */
module Medicos {
  import opened Common

  /** A speciality enum constant, known by its value. */
  datatype Especialidad = Especialidad(value: string)

  /** Address data as a request carries it (`DatosDireccion`). */
  datatype DatosDireccion = DatosDireccion(fields: seq<string>)

  /** A stored address (`Direccion`). */
  datatype Direccion = Direccion(fields: seq<string>)

  /** What the model needs of the address class: its constructor from
      request data and its `actualizarDatos`. */
  datatype DireccionOps = DireccionOps(create: DatosDireccion -> Direccion, update: (Direccion, DatosDireccion) -> Direccion)

  datatype DatosRegistroMedico = DatosRegistroMedico(
    nombre: string, telefono: string, email: string, documento: string,
    especialidad: Especialidad, direccion: DatosDireccion)

  /** The PUT body; absent fields are null. */
  datatype DatosActualizaMedico = DatosActualizaMedico(
    id: Long, nombre: Option<string>, documento: Option<string>, direccion: Option<DatosDireccion>)

  datatype Medico = Medico(
    id: Option<Long>, nombre: string, telefono: string, email: string, documento: string,
    especialidad: Especialidad, direccion: Direccion, activo: bool)

  /** `new Medico(datosRegistroMedico)`: no id yet, active, the rest copied. */
  function FromRegistro(datos: DatosRegistroMedico, ops: DireccionOps): (m: Medico)
    ensures m.id.None? && m.activo
    ensures m.nombre == datos.nombre && m.telefono == datos.telefono
    ensures m.email == datos.email && m.documento == datos.documento
    ensures m.especialidad == datos.especialidad && m.direccion == ops.create(datos.direccion)
  {
    Medico(None, datos.nombre, datos.telefono, datos.email, datos.documento,
           datos.especialidad, ops.create(datos.direccion), true)
  }

  /** `this.x` unless the argument is non-null. */
  function Keep<T>(arg: Option<T>, current: T): (kept: T) {
    if arg.Some? then arg.value else current
  }

  /** `actualizarDatos(nombre, documento, direccion)`: a copy with the
      non-null arguments applied. */
  function ActualizarDatos(m: Medico, nombre: Option<string>, documento: Option<string>,
                           direccion: Option<DatosDireccion>, ops: DireccionOps): (r: Medico)
    ensures r.id == m.id && r.telefono == m.telefono && r.email == m.email
    ensures r.especialidad == m.especialidad && r.activo == m.activo
    ensures nombre.None? ==> r.nombre == m.nombre
    ensures nombre.Some? ==> r.nombre == nombre.value
    ensures documento.None? ==> r.documento == m.documento
    ensures documento.Some? ==> r.documento == documento.value
    ensures direccion.None? ==> r.direccion == m.direccion
    ensures direccion.Some? ==> r.direccion == ops.update(m.direccion, direccion.value)
  {
    Medico(m.id, Keep(nombre, m.nombre), m.telefono, m.email, Keep(documento, m.documento),
           m.especialidad,
           if direccion.Some? then ops.update(m.direccion, direccion.value) else m.direccion,
           m.activo)
  }

  /** `desactivarMedico()`: the same record, inactive. */
  function DesactivarMedico(m: Medico): (r: Medico)
    ensures !r.activo
    ensures r.(activo := m.activo) == m
  {
    m.(activo := false)
  }

  /** Lombok `equals` generated from `id` alone. */
  predicate Equals(a: Medico, b: Medico) {
    a.id == b.id
  }

  /** Lombok `hashCode` generated from `id` alone. */
  function HashCode(m: Medico): (h: int) {
    IdHashCode(m.id)
  }

  /** An update with every argument null changes nothing. */
  lemma ActualizarNothingIsIdentity(m: Medico, ops: DireccionOps)
    ensures ActualizarDatos(m, None, None, None, ops) == m
  {
  }

  /** Setting the same name and document twice is the same as once. */
  lemma ActualizarIdempotent(m: Medico, nombre: Option<string>, documento: Option<string>, ops: DireccionOps)
    ensures var once := ActualizarDatos(m, nombre, documento, None, ops);
            ActualizarDatos(once, nombre, documento, None, ops) == once
  {
  }

  /** Deactivation is idempotent and commutes with an update. */
  lemma DesactivarLaws(m: Medico, nombre: Option<string>, documento: Option<string>,
                       direccion: Option<DatosDireccion>, ops: DireccionOps)
    ensures DesactivarMedico(DesactivarMedico(m)) == DesactivarMedico(m)
    ensures DesactivarMedico(ActualizarDatos(m, nombre, documento, direccion, ops))
         == ActualizarDatos(DesactivarMedico(m), nombre, documento, direccion, ops)
  {
  }

  /** Updated and deactivated copies equal their source and hash alike. */
  lemma CopiesEqualSource(m: Medico, nombre: Option<string>, documento: Option<string>,
                          direccion: Option<DatosDireccion>, ops: DireccionOps)
    ensures Equals(ActualizarDatos(m, nombre, documento, direccion, ops), m)
    ensures Equals(DesactivarMedico(m), m)
    ensures HashCode(ActualizarDatos(m, nombre, documento, direccion, ops)) == HashCode(m)
    ensures HashCode(DesactivarMedico(m)) == HashCode(m)
  {
  }
}

=== FILE: medico_controller.dfy ===
/** `MedicoController`: listing, registration, update, soft delete and
    lookup of doctors over an immutable table. The id the database assigns
    on insert is a parameter; the columns `email` and `documento` are
    declared unique, so a save that would duplicate one fails. */
module MedicoController {
  import opened Common
  import opened Text
  import opened Medicos
  import opened Repository

  /** Database invariant: each record is stored under its own id, and no two
      records share an email or a document. */
  predicate Consistent(store: Store<Medico>) {
    && (forall k :: k in store ==> store[k].id == Some(k))
    && (forall k1, k2 :: k1 in store && k2 in store && k1 != k2 ==>
          store[k1].email != store[k2].email && store[k1].documento != store[k2].documento)
  }

  /** Saving `m` under `id` would break a unique column. */
  predicate UniqueViolation(store: Store<Medico>, id: Long, m: Medico) {
    exists k :: k in store && k != id && (store[k].email == m.email || store[k].documento == m.documento)
  }

  /** `medicoRepository.save(m)` for a record with an id: an insert or an
      update of that row, or a constraint violation that leaves the table
      as it was. */
  function Save(store: Store<Medico>, m: Medico): (r: Outcome<Store<Medico>>)
    requires m.id.Some?
    ensures r.Ok? <==> !UniqueViolation(store, m.id.value, m)
    ensures r.Throw? ==> r.exc == SqlIntegrityViolation
    ensures r.Ok? ==> r.value.Keys == store.Keys + {m.id.value}
    ensures r.Ok? ==> r.value[m.id.value] == m
    ensures r.Ok? ==> forall k :: k in store && k != m.id.value ==> r.value[k] == store[k]
  {
    if UniqueViolation(store, m.id.value, m) then Throw(SqlIntegrityViolation) else Ok(store[m.id.value := m])
  }

  /** `listaMedicos`: the active doctors. */
  function ListaMedicos(store: Store<Medico>): (page: Store<Medico>)
    ensures forall k :: k in page <==> k in store && store[k].activo
    ensures forall k :: k in page ==> page[k] == store[k]
  {
    FindByActivoTrue(store, (m: Medico) => m.activo)
  }

  /** `existsByEmailAndDocumento`: some record, active or not, has both. */
  predicate ExistsByEmailAndDocumento(store: Store<Medico>, email: string, documento: string) {
    exists k :: k in store && store[k].email == email && store[k].documento == documento
  }

  /** The `Location` of a new doctor. */
  function Location(id: Long): (uri: string)
    requires id >= 0
  {
    "/medicos/" + NatToString(id)
  }

  /** `registraMedico(datos)`, with `newId` the id the database generates. */
  function RegistraMedico(store: Store<Medico>, datos: DatosRegistroMedico, ops: DireccionOps, newId: Long): (r: Step<Medico>)
    requires newId > 0 && newId !in store
    ensures ExistsByEmailAndDocumento(store, datos.email, datos.documento) ==>
              r == Step(store, Throw(IllegalState(DUPLICATE_MESSAGE)))
    ensures r.outcome.Ok? <==>
              && !ExistsByEmailAndDocumento(store, datos.email, datos.documento)
              && !UniqueViolation(store, newId, FromRegistro(datos, ops).(id := Some(newId)))
    ensures r.outcome.Throw? ==>
              && r.store == store
              && r.outcome.exc in {IllegalState(DUPLICATE_MESSAGE), SqlIntegrityViolation}
    ensures r.outcome.Ok? ==>
              && r.store.Keys == store.Keys + {newId}
              && (forall k :: k in store ==> r.store[k] == store[k])
              && r.store[newId] == FromRegistro(datos, ops).(id := Some(newId))
              && r.outcome.value.status == HTTP_CREATED
              && r.outcome.value.location == Some(Location(newId))
              && CodeOf(r.outcome.value) == Some("CREATED")
              && r.outcome.value.body.Fields? && "medico" in r.outcome.value.body.fields
              && r.outcome.value.body.fields["medico"] == Record(r.store[newId])
  {
    if ExistsByEmailAndDocumento(store, datos.email, datos.documento) then
      Step(store, Throw(IllegalState(DUPLICATE_MESSAGE)))
    else
      var medico := FromRegistro(datos, ops).(id := Some(newId));
      match Save(store, medico)
      case Throw(e) => Step(store, Throw(e))
      case Ok(saved) =>
        Step(saved, Ok(Reply(HTTP_CREATED, Some(Location(newId)), Fields(map[
          "code" := Literal("CREATED"),
          "message" := Literal("Médico registrado exitosamente."),
          "medico" := Record(medico)
        ]))))
  }

  /** `actualizaMedico(datos)`: the updated copy is saved under the same id.
      Inside the transaction `save` merges that copy into the instance
      `findById` returned, so the reply shows the record as updated. */
  function ActualizaMedico(store: Store<Medico>, datos: DatosActualizaMedico, ops: DireccionOps): (r: Step<Medico>)
    requires Consistent(store)
    ensures datos.id !in store ==> r == Step(store, Throw(EntityNotFound(NOT_FOUND_MESSAGE)))
    ensures r.outcome.Ok? <==>
              && datos.id in store
              && !UniqueViolation(store, datos.id, ActualizarDatos(store[datos.id], datos.nombre, datos.documento, datos.direccion, ops))
    ensures r.outcome.Throw? ==>
              && r.store == store
              && r.outcome.exc in {EntityNotFound(NOT_FOUND_MESSAGE), SqlIntegrityViolation}
    ensures r.outcome.Ok? ==>
              && datos.id in store
              && r.store == store[datos.id := ActualizarDatos(store[datos.id], datos.nombre, datos.documento, datos.direccion, ops)]
              && r.outcome.value.status == HTTP_OK
              && CodeOf(r.outcome.value) == Some("UPDATED")
              && r.outcome.value.body.Fields? && "medico" in r.outcome.value.body.fields
              && r.outcome.value.body.fields["medico"] == Record(r.store[datos.id])
  {
    if datos.id !in store then
      Step(store, Throw(EntityNotFound(NOT_FOUND_MESSAGE)))
    else
      var medico := store[datos.id];
      var actualizado := ActualizarDatos(medico, datos.nombre, datos.documento, datos.direccion, ops);
      match Save(store, actualizado)
      case Throw(e) => Step(store, Throw(e))
      case Ok(saved) =>
        Step(saved, Ok(Reply(HTTP_OK, None, Fields(map[
          "code" := Literal("UPDATED"),
          "message" := Literal("Médico actualizado exitosamente."),
          "medico" := Record(actualizado)
        ]))))
  }

  /** `desactivaMedico(id)`: soft delete; the record stays, inactive, and
      the reply is 204 with no body. */
  function DesactivaMedico(store: Store<Medico>, id: Long): (r: Step<Medico>)
    requires Consistent(store)
    ensures id !in store ==> r == Step(store, Throw(EntityNotFound(NOT_FOUND_MESSAGE)))
    ensures id in store ==>
              && r.store == store[id := DesactivarMedico(store[id])]
              && r.outcome == Ok(Reply(HTTP_NO_CONTENT, None, NoBody))
  {
    if id !in store then
      Step(store, Throw(EntityNotFound(NOT_FOUND_MESSAGE)))
    else
      var actualizado := DesactivarMedico(store[id]);
      match Save(store, actualizado)
      case Throw(e) => Step(store, Throw(e))
      case Ok(saved) => Step(saved, Ok(Reply(HTTP_NO_CONTENT, None, NoBody)))
  }

  /** `retornaDatosMedico(id)`: the stored record, active or not. */
  function RetornaDatosMedico(store: Store<Medico>, id: Long): (r: Outcome<Reply<Medico>>) {
    ReadById(store, id)
  }

  /** A successful save of a record stored under its own id keeps the
      database invariant. */
  lemma SaveKeepsConsistent(store: Store<Medico>, m: Medico)
    requires Consistent(store) && m.id.Some? && Save(store, m).Ok?
    ensures Consistent(Save(store, m).value)
  {
    var s := Save(store, m).value;
    var id := m.id.value;
    forall k1, k2 | k1 in s && k2 in s && k1 != k2
      ensures s[k1].email != s[k2].email && s[k1].documento != s[k2].documento
    {
      if k1 == id {
        assert k2 in store && k2 != id;
      } else if k2 == id {
        assert k1 in store && k1 != id;
      }
    }
  }

  /** Every operation keeps the database invariant. */
  lemma OperationsKeepConsistent(store: Store<Medico>, reg: DatosRegistroMedico, upd: DatosActualizaMedico,
                                 ops: DireccionOps, newId: Long, id: Long)
    requires Consistent(store) && newId > 0 && newId !in store
    ensures Consistent(RegistraMedico(store, reg, ops, newId).store)
    ensures Consistent(ActualizaMedico(store, upd, ops).store)
    ensures Consistent(DesactivaMedico(store, id).store)
  {
    var m := FromRegistro(reg, ops).(id := Some(newId));
    if !ExistsByEmailAndDocumento(store, reg.email, reg.documento) && Save(store, m).Ok? {
      SaveKeepsConsistent(store, m);
    }
    if upd.id in store {
      var u := ActualizarDatos(store[upd.id], upd.nombre, upd.documento, upd.direccion, ops);
      if Save(store, u).Ok? {
        SaveKeepsConsistent(store, u);
      }
    }
    if id in store {
      SaveKeepsConsistent(store, DesactivarMedico(store[id]));
    }
  }

  /** A registration that clears the (email, document) check can still be
      refused by the unique email column: the check looks at the pair only. */
  lemma SameEmailOtherDocumentRefused(store: Store<Medico>, datos: DatosRegistroMedico, ops: DireccionOps, newId: Long, k: Long)
    requires newId > 0 && newId !in store
    requires k in store && store[k].email == datos.email
    requires !ExistsByEmailAndDocumento(store, datos.email, datos.documento)
    ensures RegistraMedico(store, datos, ops, newId) == Step(store, Throw(SqlIntegrityViolation))
  {
  }

  /** A new doctor is active, listed, readable, and its `Location` is the
      path of its own record. */
  lemma RegisteredIsListedAndReadable(store: Store<Medico>, datos: DatosRegistroMedico, ops: DireccionOps, newId: Long)
    requires newId > 0 && newId !in store
    requires RegistraMedico(store, datos, ops, newId).outcome.Ok?
    ensures var s := RegistraMedico(store, datos, ops, newId).store;
            && newId in ListaMedicos(s)
            && RetornaDatosMedico(s, newId) == Ok(Reply(HTTP_OK, None, Dto(s[newId])))
    ensures var loc := Location(newId);
            StartsWith(loc, "/medicos/") && ParseNat(loc[|"/medicos/"|..]) == newId
  {
    ParseNatToString(newId);
    assert Location(newId)[|"/medicos/"|..] == NatToString(newId);
  }

  /** After a soft delete the doctor is no longer listed but is still
      returned by id, inactive; deleting again changes nothing more. */
  lemma DeletedIsHiddenButReadable(store: Store<Medico>, id: Long)
    requires Consistent(store) && id in store
    ensures var s := DesactivaMedico(store, id).store;
            && id in s && !s[id].activo
            && id !in ListaMedicos(s)
            && RetornaDatosMedico(s, id) == Ok(Reply(HTTP_OK, None, Dto(DesactivarMedico(store[id]))))
            && DesactivaMedico(s, id).store == s
  {
    var s := DesactivaMedico(store, id).store;
    assert Consistent(s);
  }

  /** The PUT reply reports the record after the update: renaming a doctor
      answers with the new name, and a later lookup by id returns the same
      record the reply carried. */
  lemma UpdateReplyShowsNewRecord(store: Store<Medico>, datos: DatosActualizaMedico, ops: DireccionOps)
    requires Consistent(store) && datos.id in store
    requires ActualizaMedico(store, datos, ops).outcome.Ok?
    ensures var r := ActualizaMedico(store, datos, ops);
            var shown := r.outcome.value.body.fields["medico"].entity;
            && (datos.nombre.Some? ==> shown.nombre == datos.nombre.value)
            && (datos.documento.Some? ==> shown.documento == datos.documento.value)
            && RetornaDatosMedico(r.store, datos.id) == Ok(Reply(HTTP_OK, None, Dto(shown)))
  {
  }
}

=== FILE: paciente.dfy ===
/** The patient record. The `Paciente` class itself is not part of this
    model: its fields are those its listing DTO reads plus the `activo` flag
    the repository filters on, and its constructor, `actualizarDatos` and
    `desactivarPaciente` are parameters. */
module Pacientes {
  import opened Common
  import opened Medicos

  datatype Paciente = Paciente(
    id: Option<Long>, nombre: string, email: string, documentoIdentidad: string, telefono: string,
    direccion: Direccion, activo: bool)

  /** The POST body. */
  datatype DatosRegistroPaciente = DatosRegistroPaciente(
    nombre: string, email: string, telefono: string, documentoIdentidad: string, direccion: DatosDireccion)

  /** `DatosActualizaPaciente`: the PUT body; absent fields are null. */
  datatype DatosActualizaPaciente = DatosActualizaPaciente(
    id: Long, nombre: Option<string>, documentoIdentidad: Option<string>, direccion: Option<DatosDireccion>)

  /** `DatosListadoPaciente`: one row of the patient listing. */
  datatype DatosListadoPaciente = DatosListadoPaciente(
    id: Option<Long>, nombre: string, email: string, documentoIdentidad: string, telefono: string)

  /** `new DatosListadoPaciente(paciente)`. */
  function Listado(p: Paciente): (d: DatosListadoPaciente)
    ensures d.id == p.id && d.nombre == p.nombre && d.email == p.email
    ensures d.documentoIdentidad == p.documentoIdentidad && d.telefono == p.telefono
  {
    DatosListadoPaciente(p.id, p.nombre, p.email, p.documentoIdentidad, p.telefono)
  }

  /** The patient operations the controller calls. */
  datatype PacienteOps = PacienteOps(
    create: DatosRegistroPaciente -> Paciente,
    actualizar: (Paciente, Option<string>, Option<string>, Option<DatosDireccion>) -> Paciente,
    desactivar: Paciente -> Paciente)

  /** The copies the operations return keep the record's id, as the doctor
      record's do. */
  ghost predicate KeepsId(ops: PacienteOps) {
    && (forall p, n, d, dir :: ops.actualizar(p, n, d, dir).id == p.id)
    && (forall p :: ops.desactivar(p).id == p.id)
  }
}

=== FILE: paciente_controller.dfy ===
/** `PacienteController`: listing, registration, update, soft delete and
    lookup of patients over an immutable table. */
module PacienteController {
  import opened Common
  import opened Text
  import opened Pacientes
  import opened Repository

  /** Each record is stored under its own id. */
  predicate WellFormed(store: Store<Paciente>) {
    forall k :: k in store ==> store[k].id == Some(k)
  }

  /** `listadoPacientes`: the active patients as listing rows. */
  function ListadoPacientes(store: Store<Paciente>): (page: map<Long, DatosListadoPaciente>)
    ensures forall k :: k in page <==> k in store && store[k].activo
    ensures forall k :: k in page ==> page[k] == Listado(store[k])
  {
    var active := FindByActivoTrue(store, (p: Paciente) => p.activo);
    map k | k in active :: Listado(active[k])
  }

  /** `existsByEmailAndDocumentoIdentidad`: some record, active or not, has both. */
  predicate ExistsByEmailAndDocumentoIdentidad(store: Store<Paciente>, email: string, documento: string) {
    exists k :: k in store && store[k].email == email && store[k].documentoIdentidad == documento
  }

  /** The `Location` of a new patient. */
  function Location(id: Long): (uri: string)
    requires id >= 0
  {
    "/pacientes/" + NatToString(id)
  }

  /** `registraPaciente(datos)`, with `newId` the id the database generates. */
  function RegistraPaciente(store: Store<Paciente>, datos: DatosRegistroPaciente, ops: PacienteOps, newId: Long): (r: Step<Paciente>)
    requires newId > 0 && newId !in store
    ensures ExistsByEmailAndDocumentoIdentidad(store, datos.email, datos.documentoIdentidad) <==>
              r == Step(store, Throw(IllegalState(DUPLICATE_MESSAGE)))
    ensures r.outcome.Ok? <==> !ExistsByEmailAndDocumentoIdentidad(store, datos.email, datos.documentoIdentidad)
    ensures r.outcome.Ok? ==>
              && r.store == store[newId := ops.create(datos).(id := Some(newId))]
              && r.outcome.value.status == HTTP_CREATED
              && r.outcome.value.location == Some(Location(newId))
              && CodeOf(r.outcome.value) == Some("CREATED")
              && r.outcome.value.body.Fields? && "paciente" in r.outcome.value.body.fields
              && r.outcome.value.body.fields["paciente"] == Record(r.store[newId])
  {
    if ExistsByEmailAndDocumentoIdentidad(store, datos.email, datos.documentoIdentidad) then
      Step(store, Throw(IllegalState(DUPLICATE_MESSAGE)))
    else
      var paciente := ops.create(datos).(id := Some(newId));
      Step(store[newId := paciente], Ok(Reply(HTTP_CREATED, Some(Location(newId)), Fields(map[
        "code" := Literal("CREATED"),
        "message" := Literal("Paciente registrado exitosamente."),
        "paciente" := Record(paciente)
      ]))))
  }

  /** `actualizarPaciente(datos)`: the updated copy is saved under the same
      id. Inside the transaction `save` merges it into the instance
      `findById` returned, so the reply shows the record as updated. */
  function ActualizarPaciente(store: Store<Paciente>, datos: DatosActualizaPaciente, ops: PacienteOps): (r: Step<Paciente>)
    requires WellFormed(store) && KeepsId(ops)
    ensures datos.id !in store <==> r == Step(store, Throw(EntityNotFound(NOT_FOUND_MESSAGE)))
    ensures datos.id in store ==>
              && r.store == store[datos.id := ops.actualizar(store[datos.id], datos.nombre, datos.documentoIdentidad, datos.direccion)]
              && r.outcome.Ok?
              && r.outcome.value.status == HTTP_OK
              && CodeOf(r.outcome.value) == Some("UPDATED")
              && r.outcome.value.body.Fields? && "paciente" in r.outcome.value.body.fields
              && r.outcome.value.body.fields["paciente"] == Record(r.store[datos.id])
  {
    if datos.id !in store then
      Step(store, Throw(EntityNotFound(NOT_FOUND_MESSAGE)))
    else
      var paciente := store[datos.id];
      var actualizado := ops.actualizar(paciente, datos.nombre, datos.documentoIdentidad, datos.direccion);
      Step(store[actualizado.id.value := actualizado], Ok(Reply(HTTP_OK, None, Fields(map[
        "code" := Literal("UPDATED"),
        "message" := Literal("Paciente actualizado exitosamente."),
        "paciente" := Record(actualizado)
      ]))))
  }

  /** `desactivaPaciente(id)`: the deactivated copy replaces the record,
      which stays present; the reply is 204 with no body. */
  function DesactivaPaciente(store: Store<Paciente>, id: Long, ops: PacienteOps): (r: Step<Paciente>)
    requires WellFormed(store) && KeepsId(ops)
    ensures id !in store <==> r == Step(store, Throw(EntityNotFound(NOT_FOUND_MESSAGE)))
    ensures id in store ==>
              && r.store == store[id := ops.desactivar(store[id])]
              && r.outcome == Ok(Reply(HTTP_NO_CONTENT, None, NoBody))
  {
    if id !in store then
      Step(store, Throw(EntityNotFound(NOT_FOUND_MESSAGE)))
    else
      var actualizado := ops.desactivar(store[id]);
      Step(store[actualizado.id.value := actualizado], Ok(Reply(HTTP_NO_CONTENT, None, NoBody)))
  }

  /** `retornaDatosPaciente(id)`: the stored record, active or not. */
  function RetornaDatosPaciente(store: Store<Paciente>, id: Long): (r: Outcome<Reply<Paciente>>) {
    ReadById(store, id)
  }

  /** Every operation keeps each record under its own id and never drops a
      record. */
  lemma OperationsKeepWellFormed(store: Store<Paciente>, reg: DatosRegistroPaciente, upd: DatosActualizaPaciente,
                                 ops: PacienteOps, newId: Long, id: Long)
    requires WellFormed(store) && KeepsId(ops) && newId > 0 && newId !in store
    ensures var s := RegistraPaciente(store, reg, ops, newId).store; WellFormed(s) && store.Keys <= s.Keys
    ensures var s := ActualizarPaciente(store, upd, ops).store; WellFormed(s) && s.Keys == store.Keys
    ensures var s := DesactivaPaciente(store, id, ops).store; WellFormed(s) && s.Keys == store.Keys
  {
  }

  /** With a deactivation that clears `activo` (as the source's comment
      says it does), a deleted patient leaves the listing but is still
      returned by id. */
  lemma DeletedIsHiddenButReadable(store: Store<Paciente>, id: Long, ops: PacienteOps)
    requires WellFormed(store) && KeepsId(ops) && id in store
    requires !ops.desactivar(store[id]).activo
    ensures var s := DesactivaPaciente(store, id, ops).store;
            && id !in ListadoPacientes(s)
            && RetornaDatosPaciente(s, id) == Ok(Reply(HTTP_OK, None, Dto(ops.desactivar(store[id]))))
  {
  }

  /** A new patient is returned by id, and its `Location` reads back as its id. */
  lemma RegisteredIsReadable(store: Store<Paciente>, datos: DatosRegistroPaciente, ops: PacienteOps, newId: Long)
    requires newId > 0 && newId !in store
    requires RegistraPaciente(store, datos, ops, newId).outcome.Ok?
    ensures var s := RegistraPaciente(store, datos, ops, newId).store;
            RetornaDatosPaciente(s, newId) == Ok(Reply(HTTP_OK, None, Dto(s[newId])))
    ensures var loc := Location(newId);
            StartsWith(loc, "/pacientes/") && ParseNat(loc[|"/pacientes/"|..]) == newId
  {
    ParseNatToString(newId);
    assert Location(newId)[|"/pacientes/"|..] == NatToString(newId);
  }

  /** The PUT reply carries the record as updated: a later lookup by id
      returns the same record. */
  lemma UpdateReplyMatchesLookup(store: Store<Paciente>, datos: DatosActualizaPaciente, ops: PacienteOps)
    requires WellFormed(store) && KeepsId(ops) && datos.id in store
    ensures var r := ActualizarPaciente(store, datos, ops);
            RetornaDatosPaciente(r.store, datos.id) == Ok(Reply(HTTP_OK, None, Dto(r.outcome.value.body.fields["paciente"].entity)))
  {
  }
}

=== FILE: repository.dfy ===
/** The persistence side shared by both CRUD controllers: a repository as an
    immutable map from id to record, and the shape of a controller reply. */
module Repository {
  import opened Common

  /** The table: generated id to stored record. */
  type Store<R> = map<Long, R>

  /** `findByActivoTrue`: the stored records whose flag is set, under their
      ids (paging and sorting are not modelled). */
  function FindByActivoTrue<R>(store: Store<R>, active: R -> bool): (page: Store<R>)
    ensures forall k :: k in page <==> k in store && active(store[k])
    ensures forall k :: k in page ==> page[k] == store[k]
  {
    map k | k in store && active(store[k]) :: store[k]
  }

  /** A value in a `Map<String, Object>` response body. */
  datatype Field<R> = Literal(text: string) | Record(entity: R)

  /** No body, a `Map<String, Object>` body, or a single response DTO. */
  datatype Body<R> = NoBody | Fields(fields: map<string, Field<R>>) | Dto(dto: R)

  /** A `ResponseEntity`: status, optional `Location` header, body. */
  datatype Reply<R> = Reply(status: int, location: Option<string>, body: Body<R>)

  /** A controller call: the table afterwards and the reply or exception. */
  datatype Step<R> = Step(store: Store<R>, outcome: Outcome<Reply<R>>)

  const NOT_FOUND_MESSAGE: string := "ERR_RECORD_NOT_FOUND"
  const DUPLICATE_MESSAGE: string := "ERR_DUPLICATE_RECORD"

  const HTTP_CREATED: int := 201
  const HTTP_NO_CONTENT: int := 204

  /** The `code` entry of a map body, if any. */
  function CodeOf<R>(r: Reply<R>): (code: Option<string>) {
    if r.body.Fields? && "code" in r.body.fields && r.body.fields["code"].Literal? then
      Some(r.body.fields["code"].text)
    else
      None
  }

  /** `findById(id).orElseThrow(EntityNotFoundException)` answered with the
      record as a 200 DTO: the GET-by-id endpoint of both controllers. The
      record is returned whether it is active or not. */
  function ReadById<R>(store: Store<R>, id: Long): (r: Outcome<Reply<R>>)
    ensures id !in store <==> r == Throw(EntityNotFound(NOT_FOUND_MESSAGE))
    ensures id in store ==> r == Ok(Reply(HTTP_OK, None, Dto(store[id])))
  {
    if id in store then Ok(Reply(HTTP_OK, None, Dto(store[id]))) else Throw(EntityNotFound(NOT_FOUND_MESSAGE))
  }
}

=== FILE: request_pipeline.dfy ===
/** One request through the security chain: the identity filter first, then
    the access policy with the identity the filter produced. */
module RequestPipeline {
  import opened Common
  import opened Text
  import opened Usuarios
  import opened TokenService
  import opened JwtFilter
  import opened AccessPolicy
  import opened Autenticacion

  /** Where a request ends up before any handler runs. */
  datatype Gate =
      // the filter wrote an error response
    | Rejected(status: int, code: string)
      // an exception left the filter
    | Escaped(exc: Exception)
      // the policy refused the caller
    | Denied(caller: Caller)
      // the request reaches its handler
    | Admitted(caller: Caller)

  /** The identity the filter leaves for authorization. */
  function CallerOf(f: FilterResult): (c: Caller)
    requires f.PassAnonymous? || f.PassAuthenticated?
    ensures f.PassAnonymous? <==> c.Anonymous?
    ensures f.PassAuthenticated? ==> forall a :: a in c.authorities <==> a in f.authorities
  {
    if f.PassAuthenticated? then Authenticated(set a | a in f.authorities) else Anonymous
  }

  /** The filter's verdict, and when it lets the request through, the
      policy's verdict on the identity the filter left. */
  function Process(authorization: Option<string>, req: Request, parse: string -> ParseOutcome, users: UserStore): (g: Gate)
    ensures g.Rejected? <==> DoFilterInternal(authorization, parse, users).Reject?
    ensures g.Escaped? <==> DoFilterInternal(authorization, parse, users).Escape?
    ensures var f := DoFilterInternal(authorization, parse, users);
            f.Reject? ==> g == Rejected(f.status, f.code)
    ensures var f := DoFilterInternal(authorization, parse, users);
            f.Escape? ==> g == Escaped(f.exc)
    ensures g.Admitted? || g.Denied? ==> g.caller == CallerOf(DoFilterInternal(authorization, parse, users))
    ensures var f := DoFilterInternal(authorization, parse, users);
            g.Admitted? <==> (f.PassAnonymous? || f.PassAuthenticated?) && Allowed(req, CallerOf(f))
    ensures g.Admitted? ==> Allowed(req, g.caller)
    ensures g.Denied? ==> !Allowed(req, g.caller)
  {
    var f := DoFilterInternal(authorization, parse, users);
    match f
    case Reject(status, code, _) => Rejected(status, code)
    case Escape(e) => Escaped(e)
    case _ =>
      var caller := CallerOf(f);
      if Allowed(req, caller) then Admitted(caller) else Denied(caller)
  }

  /** A bearer token whose compact form holds no `"Bearer "` reaches the
      verifier unchanged. */
  lemma BearerTokenOfPrefixed(token: string)
    requires !Contains(token, BEARER)
    ensures StartsWith(BEARER + token, BEARER)
    ensures BearerToken(BEARER + token) == token
  {
    RemoveAllLeading(BEARER, token);
    assert (BEARER + token)[..|BEARER|] == BEARER;
  }

  /** A malformed token is answered 400 `ERR_MALFORMED_TOKEN` whatever the
      route, before the policy is consulted. */
  lemma MalformedTokenRejectedEverywhere(token: string, req: Request, parse: string -> ParseOutcome, users: UserStore)
    requires !Contains(token, BEARER) && parse(token) == Malformed
    ensures Process(Some(BEARER + token), req, parse, users) == Rejected(400, "ERR_MALFORMED_TOKEN")
  {
    BearerTokenOfPrefixed(token);
    MalformedAndExpiredRejected(Some(BEARER + token), parse, users);
  }

  /** Without an `Authorization` header the caller is anonymous: only
      `POST /login` lets it through. */
  lemma NoHeaderOnlyLogin(path: string, m: HttpMethod, parse: string -> ParseOutcome, users: UserStore)
    ensures Process(None, Request(POST, "/login"), parse, users) == Admitted(Anonymous)
    ensures !(m == POST && path == "/login") ==> Process(None, Request(m, path), parse, users) == Denied(Anonymous)
  {
    LoginAccess(Anonymous);
    DecidingRuleOf(Request(m, path));
    assert ANONYMOUS_AUTHORITY !in {ROLE_ADMIN, ROLE_USER_MEDIC, ROLE_USER_PATIENT};
  }

  /** Logging in and presenting the issued token authenticates the caller
      with exactly its role name: a delete of a doctor is admitted iff that
      name is `ROLE_ADMIN`, a delete of a patient iff it is
      `ROLE_USER_MEDIC`; an administrator cannot delete patients. */
  lemma LoginThenDelete(users: UserStore, datos: DatosAutenticacionUsuario, matches: (string, string) -> bool,
                        now: Long, encode: Claims -> string, parse: string -> ParseOutcome)
    requires WellFormedStore(users)
    requires AutenticarUsuario(users, datos, matches, now, encode).Ok?
    requires var token := encode(GerarToken(users[datos.login], now));
             parse(token) == Valid(GerarToken(users[datos.login], now)) && !Contains(token, BEARER)
    ensures var token := AutenticarUsuario(users, datos, matches, now, encode).value.body["authenticationToken"];
            var role := users[datos.login].rol.name;
            && Process(Some(BEARER + token), Request(DELETE, "/medicos/5"), parse, users).Admitted? == (role == ROLE_ADMIN)
            && Process(Some(BEARER + token), Request(DELETE, "/pacientes/5"), parse, users).Admitted? == (role == ROLE_USER_MEDIC)
  {
    var u := users[datos.login];
    var token := encode(GerarToken(u, now));
    BearerTokenOfPrefixed(token);
    ValidTokenOutcome(Some(BEARER + token), parse, users);
    var f := DoFilterInternal(Some(BEARER + token), parse, users);
    assert f == PassAuthenticated(u, [u.rol.name]);
    var caller := CallerOf(f);
    assert AuthoritiesOf(caller) == {u.rol.name};
    assert StartsWith("/medicos/5", "/medicos/");
    assert StartsWith("/pacientes/5", "/pacientes/");
    WriteMedicosAccess(DELETE, "/medicos/5", caller);
    WritePacientesAccess(DELETE, "/pacientes/5", caller);
  }

  /** A role whose name lacks the `ROLE_` prefix can never pass a
      role-gated line: a user holding it is refused every `/medicos` and
      `/pacientes` route. */
  lemma UnprefixedRoleLockedOut(u: Usuario, m: HttpMethod, path: string)
    requires !StartsWith(u.rol.name, "ROLE_")
    requires PatternMatches(MEDICOS, path) || PatternMatches(PACIENTES, path)
    ensures !Allowed(Request(m, path), Authenticated(set a | a in GetAuthorities(u)))
  {
    var caller := Authenticated(set a | a in GetAuthorities(u));
    assert AuthoritiesOf(caller) == {u.rol.name};
    assert StartsWith(ROLE_ADMIN, "ROLE_") && StartsWith(ROLE_USER_MEDIC, "ROLE_") && StartsWith(ROLE_USER_PATIENT, "ROLE_");
    RootsDisjoint(path);
    DecidingRuleOf(Request(m, path));
  }
}

=== FILE: security_configuration.dfy ===
/** `SecurityConfiguration.securityFilterChain`: the ordered, first-match
    authorization rule list, read as a function from a request and the
    caller's identity to allow or deny. An Ant pattern `/x` followed by a double
    star (the `/x` subtree) is read as "equals `/x` or starts with `/x/`". */
module AccessPolicy {
  import opened Common
  import opened Text

  datatype HttpMethod = GET | HEAD | POST | PUT | PATCH | DELETE | OPTIONS | TRACE

  /** A path pattern: an exact path, or the subtree under `root`. */
  datatype PathPattern = Exact(path: string) | Subtree(root: string)

  predicate PatternMatches(p: PathPattern, path: string) {
    match p
    case Exact(q) => path == q
    case Subtree(root) => path == root || StartsWith(path, root + "/")
  }

  /** Some pattern of `ps` matches `path`. */
  predicate MatchesAny(ps: seq<PathPattern>, path: string)
    decreases |ps|
  {
    |ps| > 0 && (PatternMatches(ps[0], path) || MatchesAny(ps[1..], path))
  }

  /** A one- or two-pattern list matches when one of its patterns does. */
  lemma MatchesAnySmall(a: PathPattern, b: PathPattern, path: string)
    ensures MatchesAny([a], path) == PatternMatches(a, path)
    ensures MatchesAny([a, b], path) == (PatternMatches(a, path) || PatternMatches(b, path))
  {
    assert [a][1..] == [];
    assert [b][1..] == [];
    assert [a, b][1..] == [b];
    assert MatchesAny([b], path) == PatternMatches(b, path);
  }

  /** `requestMatchers(method?, patterns...)` or `anyRequest()`. */
  datatype Matcher = AnyRequest | Match(verb: Option<HttpMethod>, patterns: seq<PathPattern>)

  datatype Request = Request(verb: HttpMethod, path: string)

  predicate MatcherMatches(m: Matcher, req: Request) {
    match m
    case AnyRequest => true
    case Match(verb, patterns) =>
      (verb.None? || verb.value == req.verb) && MatchesAny(patterns, req.path)
  }

  /** `permitAll()`, `hasAnyAuthority(...)` / `hasAuthority(...)`, `authenticated()`. */
  datatype Requirement = PermitAll | HasAnyAuthority(required: set<string>) | IsAuthenticated

  /** The identity the request carries when authorization runs. */
  datatype Caller = Anonymous | Authenticated(authorities: set<string>)

  /** The authority Spring grants the anonymous identity. */
  const ANONYMOUS_AUTHORITY: string := "ROLE_ANONYMOUS"

  function AuthoritiesOf(c: Caller): (authorities: set<string>) {
    match c
    case Anonymous => {ANONYMOUS_AUTHORITY}
    case Authenticated(a) => a
  }

  predicate Grants(r: Requirement, c: Caller) {
    match r
    case PermitAll => true
    case HasAnyAuthority(required) => AuthoritiesOf(c) * required != {}
    case IsAuthenticated => c.Authenticated?
  }

  datatype Rule = Rule(matcher: Matcher, requirement: Requirement)

  /** Index of the rule that decides `req`: the first whose matcher matches. */
  function DecidingRule(rules: seq<Rule>, req: Request): (i: nat) {
    FirstIndex(rules, (r: Rule) => MatcherMatches(r.matcher, req))
  }

  /** First match wins; a request no rule matches is let through (the
      interceptor rejects no public invocation). */
  function Decide(rules: seq<Rule>, req: Request, caller: Caller): (allowed: bool)
    ensures forall i :: 0 <= i < |rules| && MatcherMatches(rules[i].matcher, req)
                        && (forall j :: 0 <= j < i ==> !MatcherMatches(rules[j].matcher, req)) ==>
              (allowed <==> Grants(rules[i].requirement, caller))
    ensures (forall j :: 0 <= j < |rules| ==> !MatcherMatches(rules[j].matcher, req)) ==> allowed
  {
    var i := DecidingRule(rules, req);
    if i < |rules| then Grants(rules[i].requirement, caller) else true
  }

  const ROLE_ADMIN: string := "ROLE_ADMIN"
  const ROLE_USER_MEDIC: string := "ROLE_USER_MEDIC"
  const ROLE_USER_PATIENT: string := "ROLE_USER_PATIENT"

  const MEDICOS: PathPattern := Subtree("/medicos")
  const PACIENTES: PathPattern := Subtree("/pacientes")

  /** The rule list of `securityFilterChain`, in source order. */
  const Rules: seq<Rule> := [
    Rule(Match(Some(POST), [Exact("/login")]), PermitAll),
    Rule(Match(Some(GET), [MEDICOS]), HasAnyAuthority({ROLE_ADMIN, ROLE_USER_MEDIC, ROLE_USER_PATIENT})),
    Rule(Match(Some(GET), [PACIENTES]), HasAnyAuthority({ROLE_USER_MEDIC, ROLE_ADMIN})),
    Rule(Match(None, [PACIENTES]), HasAnyAuthority({ROLE_USER_MEDIC})),
    Rule(Match(None, [MEDICOS, PACIENTES]), HasAnyAuthority({ROLE_ADMIN})),
    Rule(AnyRequest, IsAuthenticated)
  ]

  /** The application's decision for one request. */
  predicate Allowed(req: Request, caller: Caller) {
    Decide(Rules, req, caller)
  }

  /** A path in the `/x` subtree shares the second character of `/x`. */
  lemma SubtreeSecondChar(root: string, path: string)
    requires |root| >= 2
    ensures PatternMatches(Subtree(root), path) ==> |path| >= 2 && path[1] == root[1]
  {
    if PatternMatches(Subtree(root), path) && path != root {
      assert path[..|root| + 1] == root + "/";
      assert path[1] == (root + "/")[1];
    }
  }

  /** No path is in both the `/medicos` and the `/pacientes` subtree, and `/login`
      is under neither. */
  lemma RootsDisjoint(path: string)
    ensures !(PatternMatches(MEDICOS, path) && PatternMatches(PACIENTES, path))
    ensures !PatternMatches(MEDICOS, "/login") && !PatternMatches(PACIENTES, "/login")
  {
    SubtreeSecondChar("/medicos", path);
    SubtreeSecondChar("/pacientes", path);
  }

  /** Which line of the rule list decides each request. */
  lemma {:induction false} DecidingRuleOf(req: Request)
    ensures DecidingRule(Rules, req) ==
              if req.verb == POST && req.path == "/login" then 0
              else if req.verb == GET && PatternMatches(MEDICOS, req.path) then 1
              else if req.verb == GET && PatternMatches(PACIENTES, req.path) then 2
              else if PatternMatches(PACIENTES, req.path) then 3
              else if PatternMatches(MEDICOS, req.path) then 4
              else 5
  {
    RootsDisjoint(req.path);
    MatchesAnySmall(Exact("/login"), MEDICOS, req.path);
    MatchesAnySmall(MEDICOS, PACIENTES, req.path);
    MatchesAnySmall(PACIENTES, MEDICOS, req.path);
    var p := (r: Rule) => MatcherMatches(r.matcher, req);
    var login := req.verb == POST && req.path == "/login";
    var med := PatternMatches(MEDICOS, req.path);
    var pac := PatternMatches(PACIENTES, req.path);
    assert p(Rules[0]) == login;
    assert p(Rules[1]) == (req.verb == GET && med);
    assert p(Rules[2]) == (req.verb == GET && pac);
    assert p(Rules[3]) == pac;
    assert p(Rules[4]) == (med || pac);
    assert p(Rules[5]);
    if login {
      FirstIndexUnique(Rules, p, 0);
    } else if req.verb == GET && med {
      FirstIndexUnique(Rules, p, 1);
    } else if req.verb == GET && pac {
      FirstIndexUnique(Rules, p, 2);
    } else if pac {
      FirstIndexUnique(Rules, p, 3);
    } else if med {
      FirstIndexUnique(Rules, p, 4);
    } else {
      FirstIndexUnique(Rules, p, 5);
    }
  }

  /** `POST /login` is open to every caller; `GET /login` is not public and
      falls through to `authenticated()`. */
  lemma LoginAccess(caller: Caller)
    ensures Allowed(Request(POST, "/login"), caller)
    ensures Allowed(Request(GET, "/login"), caller) <==> caller.Authenticated?
  {
    DecidingRuleOf(Request(POST, "/login"));
    DecidingRuleOf(Request(GET, "/login"));
    RootsDisjoint("/login");
  }

  /** A GET in the `/medicos` subtree needs one of the three role authorities. */
  lemma GetMedicosAccess(path: string, caller: Caller)
    requires PatternMatches(MEDICOS, path)
    ensures Allowed(Request(GET, path), caller) <==>
              (ROLE_ADMIN in AuthoritiesOf(caller) || ROLE_USER_MEDIC in AuthoritiesOf(caller)
               || ROLE_USER_PATIENT in AuthoritiesOf(caller))
  {
    DecidingRuleOf(Request(GET, path));
    var a := AuthoritiesOf(caller);
    if ROLE_ADMIN in a {
      assert ROLE_ADMIN in a * {ROLE_ADMIN, ROLE_USER_MEDIC, ROLE_USER_PATIENT};
    } else if ROLE_USER_MEDIC in a {
      assert ROLE_USER_MEDIC in a * {ROLE_ADMIN, ROLE_USER_MEDIC, ROLE_USER_PATIENT};
    } else if ROLE_USER_PATIENT in a {
      assert ROLE_USER_PATIENT in a * {ROLE_ADMIN, ROLE_USER_MEDIC, ROLE_USER_PATIENT};
    }
  }

  /** A GET in the `/pacientes` subtree needs `ROLE_USER_MEDIC` or `ROLE_ADMIN`; a patient
      authority alone is not enough. */
  lemma GetPacientesAccess(path: string, caller: Caller)
    requires PatternMatches(PACIENTES, path)
    ensures Allowed(Request(GET, path), caller) <==>
              (ROLE_USER_MEDIC in AuthoritiesOf(caller) || ROLE_ADMIN in AuthoritiesOf(caller))
    ensures !Allowed(Request(GET, path), Authenticated({ROLE_USER_PATIENT}))
  {
    RootsDisjoint(path);
    DecidingRuleOf(Request(GET, path));
    var a := AuthoritiesOf(caller);
    if ROLE_ADMIN in a {
      assert ROLE_ADMIN in a * {ROLE_USER_MEDIC, ROLE_ADMIN};
    } else if ROLE_USER_MEDIC in a {
      assert ROLE_USER_MEDIC in a * {ROLE_USER_MEDIC, ROLE_ADMIN};
    }
    assert {ROLE_USER_PATIENT} * {ROLE_USER_MEDIC, ROLE_ADMIN} == {};
  }

  /** Any other method in the `/pacientes` subtree needs `ROLE_USER_MEDIC`:
      the `/pacientes` line matches before the admin line, so an admin alone
      is refused. */
  lemma WritePacientesAccess(m: HttpMethod, path: string, caller: Caller)
    requires m != GET && PatternMatches(PACIENTES, path)
    ensures Allowed(Request(m, path), caller) <==> ROLE_USER_MEDIC in AuthoritiesOf(caller)
    ensures !Allowed(Request(m, path), Authenticated({ROLE_ADMIN}))
  {
    RootsDisjoint(path);
    DecidingRuleOf(Request(m, path));
    if ROLE_USER_MEDIC in AuthoritiesOf(caller) {
      assert ROLE_USER_MEDIC in AuthoritiesOf(caller) * {ROLE_USER_MEDIC};
    }
    assert {ROLE_ADMIN} * {ROLE_USER_MEDIC} == {};
  }

  /** Any other method in the `/medicos` subtree needs `ROLE_ADMIN`. */
  lemma WriteMedicosAccess(m: HttpMethod, path: string, caller: Caller)
    requires m != GET && PatternMatches(MEDICOS, path)
    ensures Allowed(Request(m, path), caller) <==> ROLE_ADMIN in AuthoritiesOf(caller)
  {
    RootsDisjoint(path);
    DecidingRuleOf(Request(m, path));
    if ROLE_ADMIN in AuthoritiesOf(caller) {
      assert ROLE_ADMIN in AuthoritiesOf(caller) * {ROLE_ADMIN};
    }
  }

  /** A request matched by none of the specific lines is allowed exactly
      when an identity is present; an anonymous caller is refused. */
  lemma DefaultRequiresIdentity(req: Request, caller: Caller)
    requires forall j :: 0 <= j < 5 ==> !MatcherMatches(Rules[j].matcher, req)
    ensures Allowed(req, caller) <==> caller.Authenticated?
  {
    FirstIndexUnique(Rules, (r: Rule) => MatcherMatches(r.matcher, req), 5);
  }

  /** The line-55 list with its `/pacientes` pattern removed. */
  const RulesWithoutDeadPattern: seq<Rule> := Rules[4 := Rule(Match(None, [MEDICOS]), HasAnyAuthority({ROLE_ADMIN}))]

  /** The `/pacientes` pattern of line 55 is dead: every request in that
      subtree is decided by an earlier line, and dropping the pattern
      changes no decision. */
  lemma PacientesOnAdminLineDead(req: Request, caller: Caller)
    ensures PatternMatches(PACIENTES, req.path) ==> DecidingRule(Rules, req) < 4
    ensures Decide(Rules, req, caller) == Decide(RulesWithoutDeadPattern, req, caller)
  {
    RootsDisjoint(req.path);
    DecidingRuleOf(req);
    var i := DecidingRule(Rules, req);
    var p := (r: Rule) => MatcherMatches(r.matcher, req);
    MatchesAnySmall(MEDICOS, PACIENTES, req.path);
    assert forall j :: 0 <= j < |Rules| && j != 4 ==> RulesWithoutDeadPattern[j] == Rules[j];
    assert p(RulesWithoutDeadPattern[4]) == PatternMatches(MEDICOS, req.path);
    assert p(RulesWithoutDeadPattern[5]);
    FirstIndexUnique(RulesWithoutDeadPattern, p, i);
  }
}

=== FILE: text.dfy ===
/** The few `java.lang.String` operations the modelled code relies on, and the
    decimal rendering of an id in a `Location` header. */
module Text {

  /** `s.startsWith(p)`: a case-sensitive prefix test. */
  predicate StartsWith(s: string, p: string) {
    |p| <= |s| && s[..|p|] == p
  }

  /** `p` occurs in `s` starting at index `i`. */
  predicate OccursAt(s: string, p: string, i: nat) {
    i + |p| <= |s| && s[i..i + |p|] == p
  }

  /** `s.contains(p)`, scanning from the left. */
  predicate Contains(s: string, p: string)
    decreases |s|
  {
    StartsWith(s, p) || (|s| > 0 && Contains(s[1..], p))
  }

  /** `Contains` agrees with the positional definition of a substring. */
  lemma {:induction false} ContainsIff(s: string, p: string)
    ensures Contains(s, p) <==> exists i: nat :: OccursAt(s, p, i)
    decreases |s|
  {
    if StartsWith(s, p) {
      assert OccursAt(s, p, 0);
    } else if |s| == 0 {
    } else {
      ContainsIff(s[1..], p);
      if Contains(s[1..], p) {
        var i: nat :| OccursAt(s[1..], p, i);
        assert s[1..][i..i + |p|] == s[i + 1..i + 1 + |p|];
        assert OccursAt(s, p, i + 1);
      } else {
        forall i: nat | OccursAt(s, p, i) && i > 0
          ensures OccursAt(s[1..], p, i - 1)
        {
          assert s[1..][i - 1..i - 1 + |p|] == s[i..i + |p|];
        }
      }
    }
  }

  /** Only a string at least as long as `p` can contain it. */
  lemma {:induction false} ContainsLength(s: string, p: string)
    ensures Contains(s, p) ==> |p| <= |s|
    decreases |s|
  {
    if |s| > 0 && !StartsWith(s, p) {
      ContainsLength(s[1..], p);
    }
  }

  /** The number of non-overlapping occurrences of `target` in `s`, found
      left to right as `String.replace` finds them. */
  function CountOccurrences(s: string, target: string): (n: nat)
    requires |target| > 0
    decreases |s|
  {
    if |s| < |target| then 0
    else if s[..|target|] == target then 1 + CountOccurrences(s[|target|..], target)
    else CountOccurrences(s[1..], target)
  }

  /** `s.replace(target, "")`: every non-overlapping occurrence of `target`,
      found left to right, is removed. Whole occurrences go, one target
      length per occurrence, and at least one goes when the target occurs. */
  function RemoveAll(s: string, target: string): (r: string)
    requires |target| > 0
    ensures |r| == |s| - |target| * CountOccurrences(s, target)
    ensures Contains(s, target) <==> CountOccurrences(s, target) > 0
    ensures Contains(s, target) ==> |r| <= |s| - |target|
    ensures !Contains(s, target) ==> r == s
    decreases |s|
  {
    if |s| < |target| then
      ContainsLength(s, target);
      s
    else if s[..|target|] == target then
      var rest := RemoveAll(s[|target|..], target);
      assert |target| * (1 + CountOccurrences(s[|target|..], target))
          == |target| + |target| * CountOccurrences(s[|target|..], target);
      rest
    else
      [s[0]] + RemoveAll(s[1..], target)
  }

  /** A leading occurrence is removed together with everything the rest of
      the string loses. */
  lemma RemoveAllLeading(target: string, rest: string)
    requires |target| > 0
    ensures RemoveAll(target + rest, target) == RemoveAll(rest, target)
  {
    assert (target + rest)[..|target|] == target;
    assert (target + rest)[|target|..] == rest;
  }

  /** A string shorter than the target is left as it is. */
  lemma RemoveAllShort(s: string, target: string)
    requires |target| > 0 && |s| < |target|
    ensures RemoveAll(s, target) == s
  {
  }

  /** A head character that does not start an occurrence is kept, and the
      scan goes on from the next character. With `RemoveAllLeading` and
      `RemoveAllShort` this fixes the result for every string. */
  lemma RemoveAllSkipsHead(s: string, target: string)
    requires |target| > 0 && |s| >= |target| && s[..|target|] != target
    ensures RemoveAll(s, target) == [s[0]] + RemoveAll(s[1..], target)
  {
  }

  /** An occurrence inside the string is removed too, not only a leading
      one. */
  lemma RemoveAllInterior()
    ensures RemoveAll("Bearer a.Bearer b", "Bearer ") == "a.b"
  {
    var t := "Bearer ";
    var s0 := "Bearer a.Bearer b";
    var s1 := "a.Bearer b";
    var s2 := ".Bearer b";
    var s3 := "Bearer b";
    assert s0[..|t|] == t && s0[|t|..] == s1;
    assert s1[..|t|][0] != t[0] && s1[1..] == s2;
    assert s2[..|t|][0] != t[0] && s2[1..] == s3;
    assert s3[..|t|] == t && s3[|t|..] == "b";
    assert RemoveAll("b", t) == "b";
    assert RemoveAll(s3, t) == "b";
    assert RemoveAll(s2, t) == "." + "b";
    assert RemoveAll(s1, t) == "a" + ".b";
  }

  /** Removing every occurrence does not leave a string free of the target:
      the removal can join the two sides of an occurrence into a fresh one. */
  lemma RemoveAllCanLeaveOccurrence()
    ensures RemoveAll("BeBearer arer ", "Bearer ") == "Bearer "
    ensures Contains(RemoveAll("BeBearer arer ", "Bearer "), "Bearer ")
  {
    var t := "Bearer ";
    var s := "BeBearer arer ";
    assert s[..|t|][2] != t[2];
    assert s[1..][..|t|][1] != t[1];
    assert s[2..][..|t|] == t;
    assert s[2..][|t|..] == "arer ";
    assert RemoveAll("arer ", t) == "arer ";
    assert RemoveAll(s[1..], t) == "e" + "arer ";
    assert RemoveAll(s, t) == "B" + "earer ";
    assert StartsWith("Bearer ", t);
  }

  /** The decimal digit `d`. */
  function DigitChar(d: nat): (c: char)
    requires d < 10
    ensures '0' <= c <= '9'
    ensures c as int - '0' as int == d
  {
    "0123456789"[d]
  }

  predicate AllDigits(s: string) {
    forall i :: 0 <= i < |s| ==> '0' <= s[i] <= '9'
  }

  /** `Long.toString(n)` for a non-negative `n`: decimal, no leading zeros. */
  function NatToString(n: nat): (s: string)
    ensures |s| > 0
    ensures AllDigits(s)
    ensures |s| > 1 ==> s[0] != '0'
    decreases n
  {
    if n < 10 then [DigitChar(n)] else NatToString(n / 10) + [DigitChar(n % 10)]
  }

  /** Reads a decimal numeral back. */
  function ParseNat(s: string): (n: nat)
    requires AllDigits(s)
    decreases |s|
  {
    if |s| == 0 then 0 else 10 * ParseNat(s[..|s| - 1]) + (s[|s| - 1] as int - '0' as int)
  }

  /** The decimal rendering of an id is read back as the same id, so distinct
      ids give distinct `Location` paths. */
  lemma {:induction false} ParseNatToString(n: nat)
    ensures ParseNat(NatToString(n)) == n
    decreases n
  {
    if n >= 10 {
      ParseNatToString(n / 10);
      var s := NatToString(n);
      assert s[..|s| - 1] == NatToString(n / 10);
    }
  }

  lemma NatToStringInjective(a: nat, b: nat)
    requires NatToString(a) == NatToString(b)
    ensures a == b
  {
    ParseNatToString(a);
    ParseNatToString(b);
  }
}

=== FILE: token_service.dfy ===
/** `TokenService`: the claim set a token is issued with, and the rules
    `validarToken` and `getUsernameFromToken` apply to a parsed claim set.
    Signing, serialisation and signature checking belong to the JWT library
    and are represented by the parser outcome `ParseOutcome`. */
module TokenService {
  import opened Common
  import opened Usuarios

  /** A claim value as the builder receives it. */
  datatype ClaimValue = Str(s: string) | Num(n: int)

  /** A JWT claim set: claim name to value. */
  type Claims = map<string, ClaimValue>

  /** Value of the `iss` claim (section 4.1.1 of RFC 7519). */
  const ISSUER: string := "voll med"
  /** Token lifetime: one hour, in milliseconds. */
  const EXPIRATION_MS: int := 3_600_000
  /** `rol` claim used when a user has no authority. */
  const DEFAULT_ROLE: string := "ROLE_USER"

  /** A string-valued claim, or null when absent or not a string. */
  function ClaimString(c: Claims, name: string): (value: Option<string>) {
    if name in c && c[name].Str? then Some(c[name].s) else None
  }

  /** `claims.getSubject()` (section 4.1.2 of RFC 7519). */
  function Subject(c: Claims): (sub: Option<string>) {
    ClaimString(c, "sub")
  }

  /** `claims.getIssuer()`. */
  function Issuer(c: Claims): (iss: Option<string>) {
    ClaimString(c, "iss")
  }

  /** `stream.findFirst().orElse(d)`. */
  function FirstOrElse(s: seq<string>, d: string): (r: string)
    ensures |s| > 0 ==> r == s[0]
    ensures |s| == 0 ==> r == d
  {
    if |s| > 0 then s[0] else d
  }

  /** The builder's `addClaims`: a claim whose value is null is removed
      rather than stored. */
  function AddClaim(c: Claims, name: string, value: Option<ClaimValue>): (r: Claims)
    ensures value.Some? ==> r == c[name := value.value]
    ensures value.None? ==> r.Keys == c.Keys - {name}
    ensures forall k :: k in r ==> k in c || k == name
    ensures forall k :: k in r && k != name ==> r[k] == c[k]
  {
    match value
    case Some(v) => c[name := v]
    case None => c - {name}
  }

  /** `now.getTime() + expirationTime` in Java `long` arithmetic. */
  function ExpirationInstant(now: Long): (exp: Long)
    ensures now < TWO_63 - EXPIRATION_MS ==> exp == now + EXPIRATION_MS
  {
    WrapLong(now + EXPIRATION_MS)
  }

  /** `gerarToken(usuario)`: the claim set handed to the signer, with `now`
      the issuing instant in milliseconds. The `id` claim of a user not yet
      persisted is null and so is dropped by the builder. */
  function GerarToken(u: Usuario, now: Long): (claims: Claims)
    ensures u.id.Some? ==> claims.Keys == {"iss", "id", "rol", "sub", "iat", "exp"}
    ensures u.id.None? ==> claims.Keys == {"iss", "rol", "sub", "iat", "exp"}
    ensures Issuer(claims) == Some(ISSUER)
    ensures Subject(claims) == Some(u.login)
    ensures u.id.Some? ==> claims["id"] == Num(u.id.value)
    ensures claims["rol"] == Str(u.rol.name)
    ensures claims["iat"] == Num(now)
    ensures now < TWO_63 - EXPIRATION_MS ==> claims["exp"] == Num(now + EXPIRATION_MS)
  {
    var private := AddClaim(map[], "id", if u.id.Some? then Some(Num(u.id.value)) else None);
    var withRol := AddClaim(private, "rol", Some(Str(FirstOrElse(GetAuthorities(u), DEFAULT_ROLE))));
    withRol["iss" := Str(ISSUER)]["sub" := Str(u.login)]["iat" := Num(now)]["exp" := Num(ExpirationInstant(now))]
  }

  /** What the JWT library's `parseClaimsJws` makes of a compact string with
      the configured key, before any claim requirement: the claims of a
      well-signed, unexpired token, or the failure it raises. */
  datatype ParseOutcome =
    | Valid(claims: Claims)
    | Malformed
    | Expired
      // bad signature, unsupported token, ...
    | OtherJwtError
      // the library refuses a null or empty string outright
    | IllegalArgument

  /** `parseClaimsJws` on a parser built with an optional `requireIssuer`. */
  function ParseClaimsJws(parse: string -> ParseOutcome, token: string, requiredIssuer: Option<string>): (r: Outcome<Claims>)
    ensures r.Ok? <==> parse(token).Valid? && (requiredIssuer.Some? ==> Issuer(parse(token).claims) == requiredIssuer)
    ensures r.Ok? ==> r.value == parse(token).claims
  {
    match parse(token)
    case Valid(c) =>
      if requiredIssuer.Some? && Issuer(c) != requiredIssuer then Throw(OtherJwt) else Ok(c)
    case Malformed => Throw(MalformedJwt)
    case Expired => Throw(ExpiredJwt)
    case OtherJwtError => Throw(OtherJwt)
    case IllegalArgument => Throw(Exception.IllegalArgument)
  }

  /** `validarToken(token)`: requires issuer "voll med" and a subject. */
  function ValidarToken(parse: string -> ParseOutcome, token: string): (r: Outcome<bool>)
    ensures r.Ok? ==> r.value
    ensures r.Throw? ==> r.exc.IsJwtException() || r.exc.Runtime? || r.exc.IllegalArgument?
    ensures r.Ok? <==>
              parse(token).Valid? && Issuer(parse(token).claims) == Some(ISSUER) && Subject(parse(token).claims).Some?
    ensures r.Throw? && r.exc.Runtime? <==>
              parse(token).Valid? && Issuer(parse(token).claims) == Some(ISSUER) && Subject(parse(token).claims).None?
    ensures r.Throw? && r.exc.Runtime? ==> r.exc.message == "Verifier invalid"
    ensures parse(token).Valid? && Issuer(parse(token).claims) != Some(ISSUER) ==> r == Throw(OtherJwt)
    ensures parse(token).Malformed? ==> r == Throw(MalformedJwt)
    ensures parse(token).Expired? ==> r == Throw(ExpiredJwt)
    ensures parse(token).OtherJwtError? ==> r == Throw(OtherJwt)
    ensures parse(token).IllegalArgument? ==> r == Throw(Exception.IllegalArgument)
  {
    match ParseClaimsJws(parse, token, Some(ISSUER))
    case Throw(e) => Throw(e)
    case Ok(c) =>
      if Subject(c).None? then Throw(Runtime("Verifier invalid")) else Ok(true)
  }

  /** `getUsernameFromToken(token)`: the subject (possibly null) of any
      well-signed, unexpired token; the issuer is not checked. */
  function GetUsernameFromToken(parse: string -> ParseOutcome, token: string): (r: Outcome<Option<string>>)
    ensures r.Ok? <==> parse(token).Valid?
    ensures r.Ok? ==> r.value == Subject(parse(token).claims)
    ensures r.Throw? ==> r.exc.IsJwtException() || r.exc.IllegalArgument?
  {
    match ParseClaimsJws(parse, token, None)
    case Throw(e) => Throw(e)
    case Ok(c) => Ok(Subject(c))
  }

  /** A token that passes `validarToken` yields a non-null username. */
  lemma ValidTokenHasUsername(parse: string -> ParseOutcome, token: string)
    requires ValidarToken(parse, token).Ok?
    ensures GetUsernameFromToken(parse, token).Ok?
    ensures GetUsernameFromToken(parse, token).value.Some?
  {
  }

  /** `getUsernameFromToken` is strictly more permissive than
      `validarToken`: a token from another issuer still yields its subject. */
  lemma UsernameWithoutIssuerCheck()
    ensures var parse := (t: string) => Valid(map["iss" := Str("other"), "sub" := Str("ana")]);
            && GetUsernameFromToken(parse, "t") == Ok(Some("ana"))
            && ValidarToken(parse, "t") == Throw(OtherJwt)
  {
    var parse := (t: string) => Valid(map["iss" := Str("other"), "sub" := Str("ana")]);
    assert Issuer(parse("t").claims) == Some("other");
  }

  /** Round trip: when the library reads back exactly the claims it signed
      (same secret, not yet expired), the issued token validates and its
      username is the user's login. */
  lemma IssuedTokenRoundTrip(u: Usuario, now: Long, encode: Claims -> string, parse: string -> ParseOutcome)
    requires parse(encode(GerarToken(u, now))) == Valid(GerarToken(u, now))
    ensures ValidarToken(parse, encode(GerarToken(u, now))) == Ok(true)
    ensures GetUsernameFromToken(parse, encode(GerarToken(u, now))) == Ok(Some(u.login))
  {
  }
}

=== FILE: usuario.dfy ===
/** The user principal (`Usuario`, a Spring `UserDetails`) and the user
    repository's lookup by login. */
module Usuarios {
  import opened Common
  import Text

  /** A `RoleEnum` constant, known here only by its `name()`; the constant
      names themselves are not part of this model. */
  datatype RoleEnum = RoleEnum(name: string)

  /** All fields but the generated `id` are final. */
  datatype Usuario = Usuario(id: Option<Long>, login: string, clave: string, rol: RoleEnum)

  /** `new Usuario(login, clave, rol)`: the id is left unset until the
      entity is persisted. */
  function NewUsuario(login: string, clave: string, rol: RoleEnum): (u: Usuario)
    ensures u.id.None?
    ensures u.login == login && u.clave == clave && u.rol == rol
    ensures GetUsername(u) == login && GetPassword(u) == clave
  {
    Usuario(None, login, clave, rol)
  }

  /** `getAuthorities()`: a singleton holding `rol.name()` as it is; no
      `ROLE_` prefix is added. */
  function GetAuthorities(u: Usuario): (authorities: seq<string>)
    ensures |authorities| == 1
    ensures authorities[0] == u.rol.name
  {
    [u.rol.name]
  }

  function GetUsername(u: Usuario): (name: string) {
    u.login
  }

  function GetPassword(u: Usuario): (hash: string) {
    u.clave
  }

  predicate IsAccountNonExpired(u: Usuario) {
    true
  }

  predicate IsAccountNonLocked(u: Usuario) {
    true
  }

  predicate IsCredentialsNonExpired(u: Usuario) {
    true
  }

  predicate IsEnabled(u: Usuario) {
    true
  }

  /** Lombok `equals` generated from `id` alone. */
  predicate Equals(a: Usuario, b: Usuario) {
    a.id == b.id
  }

  /** Lombok `hashCode` generated from `id` alone. */
  function HashCode(u: Usuario): (h: int) {
    IdHashCode(u.id)
  }

  /** The authority a user carries is the role name verbatim: a role whose
      name lacks the `ROLE_` prefix yields an authority without it. */
  lemma AuthorityIsRoleName(u: Usuario)
    ensures forall a :: a in GetAuthorities(u) <==> a == u.rol.name
    ensures !Text.StartsWith(u.rol.name, "ROLE_") ==>
              forall a :: a in GetAuthorities(u) ==> !Text.StartsWith(a, "ROLE_")
  {
  }

  /** None of the account-status checks can ever fail. */
  lemma AccountFlagsAlwaysTrue(u: Usuario)
    ensures IsAccountNonExpired(u) && IsAccountNonLocked(u)
    ensures IsCredentialsNonExpired(u) && IsEnabled(u)
  {
  }

  /** Equality is an equivalence that ignores login, password and role,
      and equal users hash alike. */
  lemma EqualsByIdOnly(a: Usuario, b: Usuario)
    ensures Equals(a, b) <==> a.id == b.id
    ensures Equals(a, b) ==> HashCode(a) == HashCode(b)
    ensures Equals(a, a)
    ensures Equals(a, b) ==> Equals(b, a)
  {
  }

  /** Two users built by the three-argument constructor are always equal,
      whatever their logins, since both ids are null. */
  lemma UnsavedUsersEqual(l1: string, c1: string, r1: RoleEnum, l2: string, c2: string, r2: RoleEnum)
    ensures Equals(NewUsuario(l1, c1, r1), NewUsuario(l2, c2, r2))
  {
  }

  /** The user repository, keyed by login. */
  type UserStore = map<string, Usuario>

  /** Each entry is stored under its own login. */
  predicate WellFormedStore(users: UserStore) {
    forall l :: l in users ==> users[l].login == l
  }

  /** `usuarioRepository.findByLogin(login)`; null when no user has it. */
  function FindByLogin(users: UserStore, login: string): (r: Option<Usuario>)
    ensures r.Some? <==> login in users
    ensures r.Some? ==> r.value == users[login]
    ensures WellFormedStore(users) && r.Some? ==> GetUsername(r.value) == login
  {
    if login in users then Some(users[login]) else None
  }
}
